=== FILE: README.md ===
# Marionette screenshot client — Dafny model

`main.py` drives a headless Firefox over the Marionette remote protocol. It
creates a profile whose `prefs.js` sets `marionette.port` to 0, starts the
browser, and polls `prefs.js` until the browser writes the real port. It then
connects, checks the handshake and opens a session. After that it navigates
to the input, runs the optional resize and user scripts, finds the root
element, takes a screenshot of it and quits the browser.

This project models the protocol client at the heart of that program:

- `Decimal`: the ASCII decimal numerals of frame lengths and ports.
- `Frame`: the `<length>:<payload>` framing. `Encode` is what `send` writes;
  `Extract` is one inspection of the receive buffer.
- `Inbound`: the receive loop, which appends a read and then inspects the buffer.
- `Messages`: command and response tuples, the handshake check, and the
  lookups made on replies.
- `Client`: `MarionetteConnection`. Its state is the message id, the unprocessed
  bytes, the socket and the session id. Every operation returns the new state
  with its result or the exception it raised.
- `Prefs`: the `MARIONETTE_PORT_REGEX` search and the polling loop.
- `Capture`: the order in which `run` issues its commands, what each stage
  returns, and a whole run against a browser that answers every command.

The socket is a record holding the successive results of `recv` and the
frames written by `sendall`. A socket with no more reads is reported as
`Stalled`, where the program would block forever. JSON and base64 are library
calls; they are a `Codec` record of functions passed in as a parameter.

The receive loop is parameterised by a `ColonRule`:

- `Raise` is the code as written: `bytes.index` raises when there is no colon.
- `Wait` reads on, as the dead `colonpos != -1` guard and the protocol's
  documented behaviour intend.

The client layer (`Client` and `Capture`) runs the corrected program: it reads
with `Wait`, checks the handshake with `Messages.CheckHandshake`, and polls for
the port with `Prefs.Discover`. The code as written is modelled next to it, in
`Inbound.Receive` under `Raise`, in `Messages.CheckHandshakeAsWritten` and in
`Prefs.DiscoverAsWritten`; see Findings.

## Model

| member | source | states |
|---|---|---|
| Decimal.ParseFormatBytes | main.py:71 | the length prefix written with `%d` parses back, as `int` reads it at line 52, to exactly the payload length |
| Decimal.ParseFormatChars | main.py:144 | the digits the browser writes for a port parse back to that port |
| Frame.FirstIndex | main.py:50 | the position found is the first occurrence of the byte; none is found exactly when the byte is absent |
| Frame.Extract | main.py:50-59 | one inspection finds no colon exactly when the buffer holds none. A frame is a colon-free decimal header, the colon, exactly the declared number of bytes, and the rest. A partial frame has a valid header but too few bytes. A bad header is the prefix before the first colon and is not a numeral |
| Frame.ExtractSplits | main.py:50-59 | a buffer that splits as header, colon, declared payload and rest is always cut exactly there, so colons inside the payload never matter |
| Frame.ExtractPending | main.py:53-54 | a valid header followed by fewer bytes than it declares yields no frame |
| Frame.ExtractEncoded | main.py:71 | frame round trip: the encoding of P followed by anything yields exactly P and leaves exactly what followed |
| Frame.BadHeaderAppend | main.py:50-52 | bytes arriving after a malformed header change nothing: the buffer still fails on that same header |
| Frame.ExtractPrefix | main.py:49-59 | a prefix of a buffer that holds a frame yields that frame's payload or no frame yet, and never a malformed header. With nothing cut off it yields the whole frame |
| Frame.ExtractTruncated | main.py:49-54 | a proper prefix of a frame yields no frame: it has no colon while the cut falls in the length prefix, and is partial after it |
| Inbound.Receive | main.py:47-59 | no byte is lost: a payload comes with its header off the front of buffer plus reads, and everything else stays buffered or unread. Reads are consumed in order, at least one before the first inspection. The only errors are a missing colon (as written only), a non-numeral header, or running out of reads, which happens only once every read is taken |
| Inbound.ReceiveFinds | main.py:48-59 | under the corrected rule, a frame that is complete once the first k reads have arrived is returned: the loop never gives up on a frame the stream holds, and never returns another payload |
| Inbound.ReceiveLoop | main.py:48-59 | the `while True` loop computes exactly Receive |
| Inbound.PartialKeepsBuffer | main.py:48-54 | a partial frame keeps the whole buffer, grown by the read, and the loop reads again |
| Inbound.MalformedFails | main.py:50-52 | as written, a buffer without a colon or with a non-numeral prefix is a failure; without a colon it is exactly the ValueError of `index` |
| Inbound.TwoFramesOneRead | main.py:49-58 | two frames in one read: the first is returned and the second stays buffered whole. It is returned only after a further read, and with no further read the loop blocks |
| Inbound.SplitFrame | main.py:49-58 | under the corrected rule, a frame split across two reads at any point is reassembled, with the bytes after it left buffered. Under the as-written rule this holds once the first read reaches past the colon |
| Inbound.SplitPrefixRaises | main.py:50-51 | as written, a first read ending inside the length prefix raises instead of waiting |
| Inbound.SplitPrefixExample | main.py:49-51 | for a 12-byte payload whose first read is `1`, the as-written loop fails and the corrected loop returns the payload |
| Messages.Unpack4 | main.py:62 | four-way unpacking succeeds exactly on a four-item list, a four-key object or a four-character string |
| Messages.Interpret | main.py:62-66 | a reply is returned only from a four-item response with a null error. A raised Marionette error is the non-null error exactly as sent. Anything else is an unpacking or code failure |
| Messages.ResponseOutcome | main.py:62-66 | for every response `[1, id, error, reply]`, a null error gives the reply and a non-null error raises that error, whatever the id |
| Messages.NonResponseRejected | main.py:63 | any four-item message whose code is not `CODE_RESPONSE` fails the assertion |
| Messages.Field | main.py:81 | subscripting succeeds exactly on an object holding the key and gives its value; otherwise KeyError, or a type error on a non-object |
| Messages.CheckHandshake | main.py:38-44 | accepted exactly when the application type is gecko and the protocol is 3. A rejection names the offending application type, or the protocol version once the type is gecko |
| Messages.CheckHandshakeAsWritten | main.py:38-44 | the check as written accepts exactly the same handshakes |
| Messages.HandshakeChecksAgree | main.py:38-44 | the as-written and corrected checks accept the same handshakes and differ only in the error for a wrong application type |
| Messages.HandshakeMessageBug | main.py:40 | for a non-gecko handshake without an "application" member, the as-written check raises KeyError('application') where the corrected one reports the application type |
| Messages.FirstElementId | main.py:94 | the id is the first value of the first object of the result list. It exists exactly when the list is non-empty and its first element is a non-empty object; an empty list raises IndexError |
| Messages.ScreenshotData | main.py:99 | the image bytes exist exactly when the reply has a text "value" that base64-decodes, and are its decoding |
| Client.ReceiveMessage | main.py:47-61 | receiving, with the corrected colon rule, consumes no message id, changes no session, and writes nothing |
| Client.ReceiveMessageDecodes | main.py:47-61 | a message arriving as one frame in the first read is decoded to exactly the value the peer encoded. The bytes after the frame stay buffered and the later reads stay unread |
| Client.ReceiveResponse | main.py:62-66 | a command's response raises a Marionette error only for a non-null error, and leaves id, session and wire alone |
| Client.ReceiveResponseOutcome | main.py:62-66 | with nothing buffered and the whole response frame in the first read, a null error returns its reply and any other error raises exactly that error. What follows the frame stays buffered, and the later reads stay unread |
| Client.ReceiveResponseFinds | main.py:47-66 | whatever is buffered and however the frame is cut into reads, once the first k reads complete a response frame, a null error returns its reply and any other error raises exactly that error |
| Client.Send | main.py:68-77 | the command's frame, stamped with the current id, is appended to the wire. The id goes up by exactly one whatever the response, and the session id is unchanged |
| Client.SendEach | main.py:73-77 | commands sent one after another, each failure caught, carry consecutive ids with no gaps. Their frames reach the wire in order |
| Client.PeerReadsCommand | main.py:69-71 | with a JSON library that decodes what it encodes, the peer reads a command frame as one frame holding exactly `[0, id, name, args]` |
| Client.SendAnswered | main.py:68-77 | against a browser that answers with response frames, a command receives exactly the next reply, and the browser goes on answering the later commands |
| Client.NewSession | main.py:79-81 | sends exactly the NewSession command. It succeeds exactly when the reply has a `sessionId`, stores that value, and keeps the old session on failure. A failed response raises its error; a reply without `sessionId` raises the lookup's KeyError or type error |
| Client.HandshakeReceived | main.py:37-44 | a handshake arriving as one frame is accepted exactly when it names gecko and protocol 3 |
| Client.Connect | main.py:31-45 | the handshake uses no id. An accepted handshake is followed by exactly NewSession with id 0, whose outcome is the constructor's. A rejected one sends nothing and raises what the corrected check reports, or what reading the handshake raised |
| Client.ConnectAnswered | main.py:37-45 | a browser whose handshake is accepted and whose session reply has an id: the constructor succeeds, stores that id, and the browser goes on answering |
| Client.Navigate | main.py:84-85 | sends exactly the Navigate command with the URL. It succeeds exactly when its response does, and a failed response raises exactly its error |
| Client.NavigateAnswered | main.py:84-85 | against a browser that answers it, navigation succeeds |
| Client.ExecuteScript | main.py:87-88 | sends exactly the ExecuteScript command with the script and no arguments. It succeeds exactly when its response does, and a failed response raises exactly its error |
| Client.ExecuteScriptAnswered | main.py:87-88 | against a browser that answers it, a script succeeds |
| Client.FindElementId | main.py:91-94 | sends exactly the FindElements command. A reply gives its first element id, so an empty reply raises IndexError. A failed send raises its error |
| Client.FindElementIdAnswered | main.py:91-94 | against a browser that answers it, the id found is the first element id of the reply |
| Client.TakeScreenshot | main.py:96-99 | sends exactly the TakeScreenshot command for the element. A success returns the reply received together with its base64-decoded image. A reply without a decodable image raises the decoding's error, and a failed send raises its error |
| Client.TakeScreenshotAnswered | main.py:96-99 | against a browser that answers with a decodable image, the screenshot is that reply and its decoding |
| Client.End | main.py:104-106 | sends exactly the forced Quit. It succeeds exactly when the response is a reply and the next read finds the stream closed. A failed response raises its error, and data where the close should be raises DataAfterQuit |
| Client.EndAnswered | main.py:104-106 | against a browser that answers the quit and then closes the stream, the quit succeeds |
| Prefs.MatchLine | main.py:20-21 | a line matches only if it is `user_pref("marionette` + one character + `port", ` + digits + `);`, and the capture is the value of those digits |
| Prefs.MatchPortLine | main.py:20-21 | conversely, every line of that shape matches and captures its digits |
| Prefs.FirstPortSkips | main.py:142 | the multiline search passes over a line that does not match |
| Prefs.FirstPortTakes | main.py:142 | the search stops at the first matching line, whatever follows it |
| Prefs.PortLineReads | main.py:20-21 | the line for port n at the start of the text reads back as n, whatever follows it. Because the `.` is unescaped, this holds with any character in place of the dot |
| Prefs.SkipLines | main.py:142 | the search passes over any number of lines that do not match |
| Prefs.PortLineAmong | main.py:142 | the line for port n reads back as n after any lines that do not match, such as the comments a rewritten `prefs.js` starts with, whatever follows it |
| Prefs.InitialPrefsPort | main.py:121-122 | the initial prefs text reads as port 0 |
| Prefs.Discover | main.py:140-146 | polling as intended yields a nonzero port from the first snapshot showing one, with no earlier snapshot ready. If no snapshot is ready it never stops |
| Prefs.DiscoverAgrees | main.py:140-146 | once `port` is bound, as it is after a first matching poll, the loop as written behaves exactly as the intended one |
| Prefs.UnboundPort | main.py:143-145 | a first snapshot with no port line makes the loop as written raise, where polling on finds port 4444 |
| Prefs.InitialThenPort | main.py:121-146 | the initial text followed by the browser's 4444 line discovers 4444 |
| Capture.PlanOrder | main.py:147-159 | a complete run sends NewSession, Navigate, one ExecuteScript per script, FindElements(":root"), TakeScreenshot of the element found, and Quit |
| Capture.ScriptsOrder | main.py:149-156 | one script per truthy option, in the order width, height, user script; the user script runs last |
| Capture.Finish | main.py:158-159 | a screenshot that raises ends the run before the quit. A screenshot taken is kept, whatever the quit then does, and the quit follows it; the run ends as the quit does. The image is the decoding of the reply the screenshot command received |
| Capture.Locate | main.py:157-159 | a search that raises ends the run after one command. Otherwise the screenshot and quit are for exactly the element found, and any screenshot is the reply the socket gave to that element's command |
| Capture.RunScripts | main.py:149-159 | with no script left, the search comes next. A script that raises ends the run after one command; one that runs is followed by at least the search. What was sent is a prefix of the remaining plan, and a success sent all of it |
| Capture.Browse | main.py:148-159 | a navigation that raises ends the run after one command; one that succeeds is followed by the scripts. What was sent is a prefix of the plan from Navigate on |
| Capture.RefusedAdvanced | main.py:147 | a constructor that raised sent at most the session request, a prefix of any plan |
| Capture.Capture | main.py:147-159 | what was sent is always a prefix of the plan, stamped with ids 0, 1, 2, .... A rejected handshake sends nothing, a raising constructor ends the run, and a successful one is followed by the navigation. A successful run sent the whole plan, and its image is the decoding of the screenshot reply |
| Capture.Run | main.py:140-159 | a run connects only to a nonzero discovered port and fails with discovery's error exactly when discovery fails. Otherwise it is the capture on that port's socket |
| Capture.FinishAnswered | main.py:158-159 | against a browser that answers the screenshot with an image and then the quit, the run finishes with exactly that screenshot |
| Capture.LocateAnswered | main.py:157-159 | against a browser whose search reply names an element, the run finishes with that element's screenshot |
| Capture.RunScriptsAnswered | main.py:149-159 | against a browser that answers every script, the run goes on to the screenshot and finishes with it |
| Capture.BrowseAnswered | main.py:148-159 | against a browser that answers the navigation and everything after it, the run finishes with its screenshot |
| Capture.CaptureAnswered | main.py:147-159 | end to end: against a browser that answers every command, the run succeeds, sends the whole plan for the element the browser found, and writes exactly the image the browser sent |

## Left out

- Client.ReceiveMessage: reads with the corrected colon rule `Wait`, not the as-written `Raise`. So a handshake or response whose first read ends inside the length prefix is received here, where main.py:50 raises ValueError. `Inbound.SplitPrefixExample` shows the difference.
- Client.Connect: checks the handshake with the corrected `Messages.CheckHandshake`. A non-gecko handshake therefore raises WrongApplication here, where main.py:40 raises KeyError('application'). Both checks accept the same handshakes (`Messages.HandshakeChecksAgree`).
- Capture.Finish: a failing PNG write or `file` call is not modelled; the quit is always sent after a decoded screenshot. In the source, an exception from `write_bytes` (main.py:100) or `subprocess.check_output` (main.py:102) skips `conn.end()`.
- Capture.Run: polls with the corrected `Prefs.Discover`. The loop as written is `Prefs.DiscoverAsWritten`: it raises UnboundLocalError on a first snapshot without a port line (`Prefs.UnboundPort`) and otherwise behaves the same (`Prefs.DiscoverAgrees`).
- Capture.RunScripts: its own contract ties the image to the screenshot reply but not that reply to the socket, as do those of Capture.Browse, Capture.Capture and Capture.Run. The tie to the socket is in Capture.Locate's contract and, for a browser that answers every command, in Capture.CaptureAnswered.
- Client.Send: a `sendall` that raises is not modelled; every frame is written whole. The `finally` increment is shown for a raising receive only.
- Decimal.ParseBytes: Python's `int` also accepts surrounding whitespace, a sign, underscores and non-ASCII digits, and `\d` matches non-ASCII digits too. The model accepts only ASCII digits. Neither the browser nor this client writes the other forms.
- Inbound.Receive: a `recv` returns at most 4096 bytes, but the model allows reads of any length. This is a superset of the real behaviour.
- Inbound.Receive: the UTF-8 decoding of the length prefix is left out. Which numerals `int` accepts beyond ASCII digits is the Decimal.ParseBytes line above; bytes that are not UTF-8, where the source raises UnicodeDecodeError, are a non-numeral header here.
- Blocking: a socket that never delivers again is reported as `Stalled`, not as a hang.
- Messages.Interpret: the `assert` on the response code is treated as always active; it would vanish under `python -O`.
- Client.End: the `assert` on the read after the quit (main.py:106) is treated as always active. Under `python -O` it vanishes together with the `recv` inside it, so neither that read nor the DataAfterQuit failure would happen.
- Socket creation, subprocess start, `wait`, `terminate`, and the stdout/stderr forwarding threads are operating-system I/O and concurrency.
- `time.sleep` cadence, the temporary profile directory (including the leaked `mkdtemp`), and the file writes of `prefs.js` and the PNG are filesystem and timing effects. The prefs file is a sequence of snapshots, and the PNG is the `png` of the outcome's screenshot.
- The `file` shell command (main.py:102) and all logging are left out; the exceptions `file` can raise are covered by the Capture.Finish line above.
- JSON encoding and decoding and base64 decoding are library calls, modelled as a `Codec` parameter. Floats in JSON values are not represented.
- The `%r` formatting of the width and height is a `repr` parameter; its escaping rules are not modelled.
- Argument parsing and the program entry point are not modelled.

## Findings

| source | as written | input that shows it | evidently intended | confidence | as-written member | corrected member |
|---|---|---|---|---|---|---|
| main.py:50-51 | `bytes.index` raises ValueError when the buffer has no colon, so the `colonpos != -1` guard never fails and a read that ends inside the length prefix aborts the receive | a 12-byte payload whose first read delivers only `1` of `12:` | wait for more bytes, as with a partial payload | medium, not executed | Inbound.SplitPrefixRaises | Inbound.SplitFrame |
| main.py:40 | the rejection message reads `handshake["application"]`, which a Marionette handshake does not carry, so a non-gecko browser surfaces as KeyError('application') | `{"applicationType": "firefox-other", "marionetteProtocol": 3}` | report the `applicationType` that was checked | high, not executed | Messages.HandshakeMessageBug | Messages.CheckHandshake |
| main.py:143-145 | `port` is assigned only when the search matches, so a first poll without a port line reads an unbound `port` and raises UnboundLocalError | snapshots `""` then the line for 4444 | keep polling until a nonzero port appears | medium, not executed | Prefs.UnboundPort | Prefs.Discover |

=== FILE: base.dfy ===
/** Types shared by the whole model of the Marionette client. */
module Base {

  /** One octet of the byte stream exchanged with the browser. */
  newtype byte = x: int | 0 <= x < 256

  /** The conventional optional value. */
  datatype Option<+T> = None | Some(value: T)

  /** The bytes delivered by a sequence of socket reads, in arrival order. */
  function Flatten(chunks: seq<seq<byte>>): seq<byte>
  {
    if |chunks| == 0 then [] else chunks[0] + Flatten(chunks[1..])
  }

  /** Appending one element and then a sequence is appending their concatenation. */
  lemma Extend<T>(w: seq<T>, x: seq<T>, y: seq<T>, f: T, fs: seq<T>)
    requires x == w + [f] && y == x + fs
    ensures y == w + ([f] + fs)
  {
  }

  /** Two leading elements prepended one at a time, or together. */
  lemma Regroup<T>(a: T, b: T, xs: seq<T>, ys: seq<T>)
    ensures [a] + ([b] + (xs + ys)) == [a, b] + xs + ys
  {
  }

  /** Cutting s at k and appending the rest to the second half loses nothing. */
  lemma Rejoin<T>(s: seq<T>, k: nat, rest: seq<T>)
    requires k <= |s|
    ensures s[..k] + (s[k..] + rest) == s + rest
  {
    assert s[..k] + s[k..] == s;
  }

  /** Dropping the first element of a concatenation drops it from the left part. */
  lemma DropFirst<T>(xs: seq<T>, ys: seq<T>)
    requires |xs| > 0
    ensures (xs + ys)[1..] == xs[1..] + ys
  {
  }
}

=== FILE: capture.dfy ===
/** The command sequence of `run`: once the port is known, connect, navigate
    to the input, run the resizing and user scripts that were asked for, find
    the root element, screenshot it and quit the browser. */
module Capture {
  import opened Base
  import opened Json
  import opened Errors
  import opened Client
  import Prefs

  /** The command-line arguments `run` reads. */
  datatype Options = Options(inputUrl: string, width: Option<string>, height: Option<string>, javascript: Option<string>)

  /** Python truthiness of an optional argument: absent and empty are false. */
  predicate Given(arg: Option<string>)
  {
    arg.Some? && |arg.value| > 0
  }

  /** The script setting one CSS property of the root element; `literal` is
      the value as `%r` renders it. */
  function ResizeScript(property: string, literal: string): string
  {
    "document.querySelector(\":root\").style." + property + " = " + literal
  }

  /** The scripts `run` executes, in the order width, height, user script;
      `repr` is Python's `%r` formatting of a string. */
  function Scripts(o: Options, repr: string -> string): seq<string>
  {
    (if Given(o.width) then [ResizeScript("width", repr(o.width.value))] else [])
    + (if Given(o.height) then [ResizeScript("height", repr(o.height.value))] else [])
    + (if Given(o.javascript) then [o.javascript.value] else [])
  }

  /** One `WebDriver:ExecuteScript` command per script, in order. */
  function ScriptCalls(scripts: seq<string>): (r: seq<Call>)
    ensures |r| == |scripts|
    ensures forall i :: 0 <= i < |scripts| ==> r[i] == ExecuteScriptCall(scripts[i])
    decreases |scripts|
  {
    if |scripts| == 0 then [] else [ExecuteScriptCall(scripts[0])] + ScriptCalls(scripts[1..])
  }

  /** The commands from the screenshot on, sent once an element has been found. */
  function Finale(element: Option<Value>): seq<Call>
  {
    if element.Some? then [TakeScreenshotCall(element.value)] + [QuitCall] else []
  }

  /** The commands from the element search on. */
  function Ending(element: Option<Value>): seq<Call>
  {
    [FindElementsCall(":root")] + Finale(element)
  }

  /** The scripts, then the commands from the element search on. */
  function ScriptsThen(scripts: seq<string>, element: Option<Value>): seq<Call>
    decreases |scripts|
  {
    if |scripts| == 0 then Ending(element)
    else [ExecuteScriptCall(scripts[0])] + ScriptsThen(scripts[1..], element)
  }

  /** The commands from the navigation on. */
  function Browsing(url: string, scripts: seq<string>, element: Option<Value>): seq<Call>
  {
    [NavigateCall(url)] + ScriptsThen(scripts, element)
  }

  /** Every command `run` sends, in order, given the element the search found. */
  function Plan(o: Options, repr: string -> string, element: Option<Value>): seq<Call>
  {
    [NewSessionCall] + Browsing(o.inputUrl, Scripts(o, repr), element)
  }

  /** The scripts stage of the plan is one ExecuteScript per script, in order. */
  lemma {:induction false} ScriptsThenCalls(scripts: seq<string>, element: Option<Value>)
    ensures ScriptsThen(scripts, element) == ScriptCalls(scripts) + Ending(element)
    decreases |scripts|
  {
    if |scripts| > 0 {
      ScriptsThenCalls(scripts[1..], element);
      assert ScriptCalls(scripts) + Ending(element)
          == [ExecuteScriptCall(scripts[0])] + (ScriptCalls(scripts[1..]) + Ending(element));
    }
  }

  /** The order of the commands of a complete run: NewSession, Navigate, one
      ExecuteScript per script, FindElements, TakeScreenshot of the element
      found, Quit. */
  lemma PlanOrder(o: Options, repr: string -> string, element: Value)
    ensures Plan(o, repr, Some(element)) ==
      [NewSessionCall, NavigateCall(o.inputUrl)] + ScriptCalls(Scripts(o, repr))
      + [FindElementsCall(":root"), TakeScreenshotCall(element), QuitCall]
  {
    var scripts := Scripts(o, repr);
    ScriptsThenCalls(scripts, Some(element));
    assert Ending(Some(element)) == [FindElementsCall(":root"), TakeScreenshotCall(element), QuitCall];
    Regroup(NewSessionCall, NavigateCall(o.inputUrl), ScriptCalls(scripts), Ending(Some(element)));
  }

  /** One script per given option, in the order width, height, user script. */
  lemma ScriptsOrder(o: Options, repr: string -> string)
    ensures var scripts := Scripts(o, repr);
      && |scripts| == (if Given(o.width) then 1 else 0) + (if Given(o.height) then 1 else 0) + (if Given(o.javascript) then 1 else 0)
      && (Given(o.width) ==> scripts[0] == ResizeScript("width", repr(o.width.value)))
      && (Given(o.height) ==> scripts[if Given(o.width) then 1 else 0] == ResizeScript("height", repr(o.height.value)))
      && (Given(o.javascript) ==> scripts[|scripts| - 1] == o.javascript.value)
  {
  }

  /** A complete plan has the scripts, the search, the screenshot and the quit. */
  lemma {:induction false} ScriptsThenLength(scripts: seq<string>, element: Option<Value>)
    ensures |ScriptsThen(scripts, element)| == |scripts| + if element.Some? then 3 else 1
    decreases |scripts|
  {
    if |scripts| > 0 {
      ScriptsThenLength(scripts[1..], element);
    }
  }

  /** How far `run` got: the connection, the element found, the screenshot
      taken (the reply and the image bytes written to the output file), and
      whether it finished or what it raised. */
  datatype Outcome = Outcome(conn: Connection, element: Option<Value>, shot: Option<Screenshot>, result: Result<()>)

  /** The image written is the base64 decoding of the screenshot reply. */
  predicate Decoded(codec: Codec, r: Outcome)
  {
    r.shot.Some? ==> Messages.ScreenshotData(codec, r.shot.value.reply) == Success(r.shot.value.png)
  }

  /** `takeScreenshotFromElement` then `end`: the image is written before the
      quit, so it survives a failing quit. */
  function Finish(codec: Codec, c: Connection, element: Value): (r: Outcome)
    ensures Advanced(codec, c, r.conn, Finale(Some(element)))
    ensures r.element == Some(element)
    // a screenshot that raises ends the run before the quit
    ensures var shot := TakeScreenshot(codec, c, element);
      shot.result.Failure? ==>
        r.shot.None? && r.result == Failure(shot.result.error) && |r.conn.socket.wire| == |c.socket.wire| + 1
    // a screenshot taken is kept and the quit follows; the run ends as the quit does
    ensures var shot := TakeScreenshot(codec, c, element);
      shot.result.Success? ==>
        && r.shot == Some(shot.result.value)
        && r.result == End(codec, shot.conn).result
        && |r.conn.socket.wire| == |c.socket.wire| + 2
    ensures r.shot.Some? ==> Send(codec, c, TakeScreenshotCall(element)).result == Success(r.shot.value.reply)
    ensures Decoded(codec, r)
  {
    var shot := TakeScreenshot(codec, c, element);
    match shot.result
    case Failure(e) =>
      AdvancedNone(codec, shot.conn, shot.conn, [QuitCall]);
      AdvancedCons(codec, c, shot.conn, shot.conn, TakeScreenshotCall(element), [QuitCall]);
      Outcome(shot.conn, Some(element), None, Failure(e))
    case Success(taken) =>
      var quit := End(codec, shot.conn);
      AdvancedNone(codec, quit.conn, quit.conn, []);
      AdvancedCons(codec, shot.conn, quit.conn, quit.conn, QuitCall, []);
      AdvancedCons(codec, c, shot.conn, quit.conn, TakeScreenshotCall(element), [QuitCall]);
      Outcome(quit.conn, Some(element), Some(taken), quit.result)
  }

  /** `findElementIdByCssSelector(":root")`, then the screenshot and quit. */
  function Locate(codec: Codec, c: Connection): (r: Outcome)
    ensures Advanced(codec, c, r.conn, Ending(r.element))
    // a search that raises ends the run with nothing more sent
    ensures var found := FindElementId(codec, c, ":root");
      found.result.Failure? ==>
        && r.element.None? && r.shot.None? && r.result == Failure(found.result.error)
        && |r.conn.socket.wire| == |c.socket.wire| + 1
    // otherwise the screenshot and the quit are for exactly the element found
    ensures var found := FindElementId(codec, c, ":root");
      found.result.Success? ==> r == Finish(codec, found.conn, found.result.value)
    ensures r.shot.Some? ==>
      && r.element.Some?
      && Send(codec, FindElementId(codec, c, ":root").conn, TakeScreenshotCall(r.element.value)).result
           == Success(r.shot.value.reply)
    ensures r.result.Success? ==> r.element.Some? && r.shot.Some? && |r.conn.socket.wire| == |c.socket.wire| + 3
    ensures Decoded(codec, r)
  {
    var found := FindElementId(codec, c, ":root");
    match found.result
    case Failure(e) =>
      AdvancedNone(codec, found.conn, found.conn, []);
      AdvancedCons(codec, c, found.conn, found.conn, FindElementsCall(":root"), []);
      Outcome(found.conn, None, None, Failure(e))
    case Success(element) =>
      var r := Finish(codec, found.conn, element);
      AdvancedCons(codec, c, found.conn, r.conn, FindElementsCall(":root"), Finale(r.element));
      r
  }

  /** The `executeJavascript` calls in order, stopping at the first that
      raises, then the element search and screenshot. */
  function RunScripts(codec: Codec, c: Connection, scripts: seq<string>): (r: Outcome)
    ensures Advanced(codec, c, r.conn, ScriptsThen(scripts, r.element))
    // with no script left, the search comes next
    ensures |scripts| == 0 ==> r == Locate(codec, c)
    // a script that raises ends the run; one that runs is followed by at least the search
    ensures |scripts| > 0 ==> var ran := ExecuteScript(codec, c, scripts[0]);
      && (ran.result.Failure? ==>
            && r.element.None? && r.shot.None? && r.result == Failure(ran.result.error)
            && |r.conn.socket.wire| == |c.socket.wire| + 1)
      && (ran.result.Success? ==> |r.conn.socket.wire| >= |c.socket.wire| + 2)
    ensures r.element.Some? ==> |r.conn.socket.wire| >= |c.socket.wire| + |scripts| + 2
    ensures r.result.Success? ==>
      r.element.Some? && r.shot.Some? && |r.conn.socket.wire| == |c.socket.wire| + |scripts| + 3
    ensures Decoded(codec, r)
    decreases |scripts|
  {
    if |scripts| == 0 then Locate(codec, c)
    else
      var ran := ExecuteScript(codec, c, scripts[0]);
      match ran.result
      case Failure(e) =>
        AdvancedNone(codec, ran.conn, ran.conn, ScriptsThen(scripts[1..], None));
        AdvancedCons(codec, c, ran.conn, ran.conn, ExecuteScriptCall(scripts[0]), ScriptsThen(scripts[1..], None));
        Outcome(ran.conn, None, None, Failure(e))
      case Success(_) =>
        var r := RunScripts(codec, ran.conn, scripts[1..]);
        AdvancedCons(codec, c, ran.conn, r.conn, ExecuteScriptCall(scripts[0]), ScriptsThen(scripts[1..], r.element));
        r
  }

  /** `navigateTo` the input, then the scripts and the screenshot. */
  function Browse(codec: Codec, c: Connection, url: string, scripts: seq<string>): (r: Outcome)
    ensures Advanced(codec, c, r.conn, Browsing(url, scripts, r.element))
    // a navigation that raises ends the run; one that succeeds is followed by the scripts
    ensures var nav := Navigate(codec, c, url);
      && (nav.result.Failure? ==>
            && r.element.None? && r.shot.None? && r.result == Failure(nav.result.error)
            && |r.conn.socket.wire| == |c.socket.wire| + 1)
      && (nav.result.Success? ==> r == RunScripts(codec, nav.conn, scripts))
    ensures r.result.Success? ==>
      r.element.Some? && r.shot.Some? && |r.conn.socket.wire| == |c.socket.wire| + |scripts| + 4
    ensures Decoded(codec, r)
  {
    var nav := Navigate(codec, c, url);
    match nav.result
    case Failure(e) =>
      AdvancedNone(codec, nav.conn, nav.conn, ScriptsThen(scripts, None));
      AdvancedCons(codec, c, nav.conn, nav.conn, NavigateCall(url), ScriptsThen(scripts, None));
      Outcome(nav.conn, None, None, Failure(e))
    case Success(_) =>
      var r := RunScripts(codec, nav.conn, scripts);
      AdvancedCons(codec, c, nav.conn, r.conn, NavigateCall(url), ScriptsThen(scripts, r.element));
      r
  }

  /** A constructor that raised sent at most the session request: a prefix of any plan. */
  lemma RefusedAdvanced(codec: Codec, socket: Socket, o: Options, repr: string -> string)
    ensures Connect(codec, socket).result.Failure? ==>
      Advanced(codec, Connection(0, [], socket, None), Connect(codec, socket).conn, Plan(o, repr, None))
  {
    var start, hello := Connection(0, [], socket, None), Connect(codec, socket);
    if HandshakeAccepted(codec, socket) {
      var later := Browsing(o.inputUrl, Scripts(o, repr), None);
      AdvancedNone(codec, hello.conn, hello.conn, later);
      AdvancedCons(codec, start, hello.conn, hello.conn, NewSessionCall, later);
    } else {
      AdvancedNone(codec, start, hello.conn, Plan(o, repr, None));
    }
  }

  /** Lines 147-159 of `run` on the socket to the browser: every command goes
      out in the order of the plan with ids 0, 1, 2, ..., the first failure
      ends the run, and a handshake that is not accepted sends nothing. */
  function Capture(codec: Codec, socket: Socket, o: Options, repr: string -> string): (r: Outcome)
    ensures Advanced(codec, Connection(0, [], socket, None), r.conn, Plan(o, repr, r.element))
    ensures !HandshakeAccepted(codec, socket) ==> r.result.Failure? && r.conn.socket.wire == socket.wire
    // a constructor that raises ends the run; one that succeeds is followed by the navigation
    ensures var hello := Connect(codec, socket);
      && (hello.result.Failure? ==> r.element.None? && r.shot.None? && r.result == Failure(hello.result.error))
      && (hello.result.Success? ==> r == Browse(codec, hello.conn, o.inputUrl, Scripts(o, repr)))
    ensures r.result.Success? ==> (
      && r.element.Some? && r.shot.Some?
      && r.conn.socket.wire == socket.wire + Frames(codec, 0, Plan(o, repr, r.element)))
    ensures Decoded(codec, r)
  {
    var start := Connection(0, [], socket, None);
    var hello := Connect(codec, socket);
    match hello.result
    case Failure(e) =>
      RefusedAdvanced(codec, socket, o, repr);
      Outcome(hello.conn, None, None, Failure(e))
    case Success(_) =>
      var r := Browse(codec, hello.conn, o.inputUrl, Scripts(o, repr));
      AdvancedCons(codec, start, hello.conn, r.conn, NewSessionCall, Browsing(o.inputUrl, Scripts(o, repr), r.element));
      if r.result.Success? then
        ScriptsThenLength(Scripts(o, repr), r.element);
        AdvancedComplete(codec, start, r.conn, Plan(o, repr, r.element));
        r
      else r
  }

  /** All of `run` that the model covers: poll the prefs snapshots for the
      port, then capture over the socket of the browser listening on it. */
  function Run(codec: Codec, snapshots: seq<string>, listening: nat -> Socket, o: Options, repr: string -> string)
    : (r: Result<Outcome>)
    ensures r.Failure? <==> Prefs.Discover(snapshots).Failure?
    ensures r.Failure? ==> r.error == Prefs.Discover(snapshots).error
    ensures r.Success? ==> var port := Prefs.Discover(snapshots).value;
      && port != 0
      && r.value == Capture(codec, listening(port), o, repr)
      && Advanced(codec, Connection(0, [], listening(port), None), r.value.conn, Plan(o, repr, r.value.element))
      && (r.value.result.Success? ==> (
          && r.value.shot.Some?
          && r.value.conn.socket.wire == listening(port).wire + Frames(codec, 0, Plan(o, repr, r.value.element))))
    ensures r.Success? ==> Decoded(codec, r.value)
  {
    match Prefs.Discover(snapshots)
    case Failure(e) => Failure(e)
    case Success(port) => Success(Capture(codec, listening(port), o, repr))
  }

  /** Against a browser that answers the screenshot with an image and then
      the quit, the run finishes with exactly that screenshot. */
  lemma FinishAnswered(codec: Codec, c: Connection, element: Value, shot: Screenshot, quit: Value)
    requires Faithful(codec)
    requires Answers(codec, c, [shot.reply, quit])
    requires Messages.ScreenshotData(codec, shot.reply) == Success(shot.png)
    ensures var r := Finish(codec, c, element);
      r.result == Success(()) && r.shot == Some(shot)
  {
    TakeScreenshotAnswered(codec, c, element, shot.png, [shot.reply, quit]);
    EndAnswered(codec, TakeScreenshot(codec, c, element).conn, quit);
  }

  /** Against a browser that answers the search with a list whose first
      element is found, then the screenshot and the quit, the run finishes
      with that element's screenshot. */
  lemma LocateAnswered(codec: Codec, c: Connection, found: Value, shot: Screenshot, quit: Value)
    requires Faithful(codec)
    requires Answers(codec, c, [found, shot.reply, quit])
    requires Messages.FirstElementId(found).Success?
    requires Messages.ScreenshotData(codec, shot.reply) == Success(shot.png)
    ensures var r := Locate(codec, c);
      r.result == Success(()) && r.element == Some(Messages.FirstElementId(found).value) && r.shot == Some(shot)
  {
    FindElementIdAnswered(codec, c, ":root", [found, shot.reply, quit]);
    assert [found, shot.reply, quit][1..] == [shot.reply, quit];
    var search := FindElementId(codec, c, ":root");
    FinishAnswered(codec, search.conn, search.result.value, shot, quit);
  }

  /** A script that runs is followed by the rest of the scripts. */
  lemma RunScriptsStep(codec: Codec, c: Connection, scripts: seq<string>)
    requires |scripts| > 0 && ExecuteScript(codec, c, scripts[0]).result.Success?
    ensures RunScripts(codec, c, scripts) == RunScripts(codec, ExecuteScript(codec, c, scripts[0]).conn, scripts[1..])
  {
  }

  /** Against a browser that answers every script and then the search, the
      screenshot and the quit, the run finishes with that screenshot. */
  lemma {:induction false} RunScriptsAnswered(codec: Codec, c: Connection, scripts: seq<string>, outputs: seq<Value>,
                                              found: Value, shot: Screenshot, quit: Value)
    requires Faithful(codec)
    requires |outputs| == |scripts| && Answers(codec, c, outputs + [found, shot.reply, quit])
    requires Messages.FirstElementId(found).Success?
    requires Messages.ScreenshotData(codec, shot.reply) == Success(shot.png)
    ensures var r := RunScripts(codec, c, scripts);
      r.result == Success(()) && r.element == Some(Messages.FirstElementId(found).value) && r.shot == Some(shot)
    decreases |scripts|
  {
    var tail := [found, shot.reply, quit];
    if |scripts| == 0 {
      assert outputs + tail == tail;
      LocateAnswered(codec, c, found, shot, quit);
    } else {
      ExecuteScriptAnswered(codec, c, scripts[0], outputs + tail);
      DropFirst(outputs, tail);
      RunScriptsStep(codec, c, scripts);
      RunScriptsAnswered(codec, ExecuteScript(codec, c, scripts[0]).conn, scripts[1..], outputs[1..], found, shot, quit);
    }
  }

  /** Against a browser that answers the navigation, the scripts and the rest,
      the run from the navigation on finishes with its screenshot. */
  lemma BrowseAnswered(codec: Codec, c: Connection, url: string, scripts: seq<string>, outputs: seq<Value>,
                       navigated: Value, found: Value, shot: Screenshot, quit: Value)
    requires Faithful(codec)
    requires |outputs| == |scripts| && Answers(codec, c, [navigated] + (outputs + [found, shot.reply, quit]))
    requires Messages.FirstElementId(found).Success?
    requires Messages.ScreenshotData(codec, shot.reply) == Success(shot.png)
    ensures var r := Browse(codec, c, url, scripts);
      r.result == Success(()) && r.element == Some(Messages.FirstElementId(found).value) && r.shot == Some(shot)
  {
    var replies := [navigated] + (outputs + [found, shot.reply, quit]);
    NavigateAnswered(codec, c, url, replies);
    assert replies[1..] == outputs + [found, shot.reply, quit];
    RunScriptsAnswered(codec, Navigate(codec, c, url).conn, scripts, outputs, found, shot, quit);
  }

  /** A browser that accepts a whole run: the handshake it sends, and its
      reply to each command of the plan in order. */
  datatype Browser = Browser(handshake: Value, session: Value, navigated: Value, scripted: seq<Value>,
                             found: Value, shot: Screenshot, quit: Value)

  /** The replies of the browser after the handshake, one per command of the plan. */
  function Answered(b: Browser): seq<Value>
  {
    [b.session] + ([b.navigated] + (b.scripted + [b.found, b.shot.reply, b.quit]))
  }

  /** What the browser sends: its handshake, a response to every command, and
      then the end of the stream. */
  function Stream(codec: Codec, b: Browser): seq<seq<byte>>
  {
    [Frame.Encode(codec.dumps(b.handshake))] + Replies(codec, 0, Answered(b)) + [[]]
  }

  /** A browser whose handshake is accepted, whose session reply carries an
      id, which answers every script, whose search finds an element and whose
      screenshot decodes. */
  ghost predicate Cooperative(codec: Codec, b: Browser, o: Options, repr: string -> string)
  {
    && Messages.Accepts(b.handshake)
    && Messages.Field(b.session, "sessionId").Success?
    && |b.scripted| == |Scripts(o, repr)|
    && Messages.FirstElementId(b.found).Success?
    && Messages.ScreenshotData(codec, b.shot.reply) == Success(b.shot.png)
  }

  /** End to end: against a browser that answers every command, the run sends
      the whole plan for the element the browser found and writes exactly the
      image the browser sent. */
  lemma CaptureAnswered(codec: Codec, socket: Socket, o: Options, repr: string -> string, b: Browser)
    requires Faithful(codec)
    requires Cooperative(codec, b, o, repr)
    requires socket.incoming == Stream(codec, b)
    ensures var r := Capture(codec, socket, o, repr);
      && r.result == Success(())
      && r.element == Some(Messages.FirstElementId(b.found).value)
      && r.shot == Some(b.shot)
      && r.conn.socket.wire == socket.wire + Frames(codec, 0, Plan(o, repr, r.element))
  {
    ConnectAnswered(codec, socket, b.handshake, Answered(b));
    assert Answered(b)[1..] == [b.navigated] + (b.scripted + [b.found, b.shot.reply, b.quit]);
    BrowseAnswered(codec, Connect(codec, socket).conn, o.inputUrl, Scripts(o, repr), b.scripted,
                   b.navigated, b.found, b.shot, b.quit);
  }
}

=== FILE: client.dfy ===
/** `MarionetteConnection`: the connection state (next message id, unprocessed
    bytes, socket, session id) and the operations on it, each returning the
    connection afterwards together with its result or the error it raised. */
module Client {
  import opened Base
  import opened Json
  import opened Errors
  import Decimal
  import Frame
  import Inbound
  import Messages

  /** The socket as the client sees it: the successive results of `recv`, and
      the frames `sendall` has written so far. */
  datatype Socket = Socket(incoming: seq<seq<byte>>, wire: seq<seq<byte>>)

  /** The attributes of a `MarionetteConnection`. */
  datatype Connection = Connection(messageId: nat, unprocessed: seq<byte>, socket: Socket, sessionId: Option<Value>)

  /** The connection after an operation, and what the operation returned or raised. */
  datatype Reply<+T> = Reply(conn: Connection, result: Result<T>)

  /** A command to send: its name and its arguments. */
  datatype Call = Call(name: string, args: Value)

  /** The commands of the client, with the arguments it sends. */
  const NewSessionCall: Call := Call("WebDriver:NewSession", Obj([]))

  function NavigateCall(url: string): Call
  {
    Call("WebDriver:Navigate", Obj([Member("url", Str(url))]))
  }

  function ExecuteScriptCall(script: string): Call
  {
    Call("WebDriver:ExecuteScript", Obj([Member("script", Str(script)), Member("args", Arr([]))]))
  }

  function FindElementsCall(selector: string): Call
  {
    Call("WebDriver:FindElements", Obj([Member("using", Str("css selector")), Member("value", Str(selector))]))
  }

  function TakeScreenshotCall(elementId: Value): Call
  {
    Call("WebDriver:TakeScreenshot", Obj([Member("full", Bool(false)), Member("highlights", Arr([])), Member("id", elementId)]))
  }

  const QuitCall: Call := Call("Marionette:Quit", Obj([Member("flags", Arr([Str("eForceQuit")]))]))

  /** The frame `send` writes for a command stamped with id. */
  function CommandFrame(codec: Codec, id: nat, call: Call): seq<byte>
  {
    Frame.Encode(codec.dumps(Messages.Command(id, call.name, call.args)))
  }

  /** The frame loop of `receive` followed by `json.loads`. */
  function ReceiveMessage(codec: Codec, c: Connection): (r: Reply<Value>)
    ensures r.conn.messageId == c.messageId && r.conn.sessionId == c.sessionId
    ensures r.conn.socket.wire == c.socket.wire
  {
    var got := Inbound.Receive(Inbound.Wait, c.unprocessed, c.socket.incoming);
    var next := c.(unprocessed := got.buffer, socket := c.socket.(incoming := got.incoming));
    Reply(next, if got.result.Failure? then Failure(got.result.error) else Decode(codec, got.result.value))
  }

  /** `json.loads` on a frame payload. */
  function Decode(codec: Codec, payload: seq<byte>): Result<Value>
  {
    match codec.loads(payload)
    case None => Failure(MalformedJson)
    case Some(v) => Success(v)
  }

  /** The frames of `calls` stamped with consecutive ids from `id`. */
  function Frames(codec: Codec, id: nat, calls: seq<Call>): (r: seq<seq<byte>>)
    ensures |r| == |calls|
    ensures forall k :: 0 <= k < |calls| ==> r[k] == CommandFrame(codec, id + k, calls[k])
    decreases |calls|
  {
    if |calls| == 0 then [] else [CommandFrame(codec, id, calls[0])] + Frames(codec, id + 1, calls[1..])
  }

  /** One command's effect on the connection: its frame, stamped with the old
      id, is written, and the id advances by exactly one whatever the response. */
  ghost predicate OneCommand(codec: Codec, before: Connection, after: Connection, call: Call)
  {
    && after.messageId == before.messageId + 1
    && after.socket.wire == before.socket.wire + [CommandFrame(codec, before.messageId, call)]
  }

  /** Going from `before` to `after` on one connection, the leading commands
      of `calls` were sent in order, stamped with consecutive ids from the id
      `before` held, and the id advanced past exactly those. */
  ghost predicate Advanced(codec: Codec, before: Connection, after: Connection, calls: seq<Call>)
  {
    && |before.socket.wire| <= |after.socket.wire| <= |before.socket.wire| + |calls|
    && var n := |after.socket.wire| - |before.socket.wire|;
       && after.socket.wire == before.socket.wire + Frames(codec, before.messageId, calls[..n])
       && after.messageId == before.messageId + n
  }

  /** Nothing sent: no command of any plan has gone out. */
  lemma AdvancedNone(codec: Codec, before: Connection, after: Connection, calls: seq<Call>)
    requires after.socket.wire == before.socket.wire && after.messageId == before.messageId
    ensures Advanced(codec, before, after, calls)
  {
    assert before.socket.wire + Frames(codec, before.messageId, calls[..0]) == before.socket.wire;
  }

  /** A plan advanced by as many frames as it has commands has been sent whole. */
  lemma AdvancedComplete(codec: Codec, before: Connection, after: Connection, calls: seq<Call>)
    requires Advanced(codec, before, after, calls)
    requires |after.socket.wire| == |before.socket.wire| + |calls|
    ensures after.socket.wire == before.socket.wire + Frames(codec, before.messageId, calls)
    ensures after.messageId == before.messageId + |calls|
  {
    assert calls[..|calls|] == calls;
  }

  /** One command sent, then part of the rest of a plan: part of the whole plan. */
  lemma AdvancedCons(codec: Codec, c0: Connection, c1: Connection, c2: Connection, call: Call, rest: seq<Call>)
    requires OneCommand(codec, c0, c1, call) && Advanced(codec, c1, c2, rest)
    ensures Advanced(codec, c0, c2, [call] + rest)
  {
    var n := |c2.socket.wire| - |c1.socket.wire|;
    var f, fs := CommandFrame(codec, c0.messageId, call), Frames(codec, c1.messageId, rest[..n]);
    assert ([call] + rest)[..n + 1] == [call] + rest[..n];
    assert Frames(codec, c0.messageId, [call] + rest[..n]) == [f] + fs by {
      assert ([call] + rest[..n])[1..] == rest[..n];
    }
    Extend(c0.socket.wire, c1.socket.wire, c2.socket.wire, f, fs);
  }

  /** A message that arrives as one frame, the first read holding all of it,
      is decoded back to the value the peer encoded; the bytes after the frame
      stay buffered and the later reads stay unread. */
  lemma ReceiveMessageDecodes(codec: Codec, c: Connection, v: Value, rest: seq<byte>, more: seq<seq<byte>>)
    requires Faithful(codec)
    requires c.unprocessed == [] && c.socket.incoming == [Frame.Encode(codec.dumps(v)) + rest] + more
    ensures ReceiveMessage(codec, c) == Reply(c.(unprocessed := rest, socket := c.socket.(incoming := more)), Success(v))
  {
    var payload := codec.dumps(v);
    Frame.ExtractEncoded(payload, rest);
    assert [] + c.socket.incoming[0] == Frame.Encode(payload) + rest;
    Inbound.DeliverRead(Inbound.Wait, [], c.socket.incoming);
    assert c.socket.incoming[1..] == more;
  }

  /** The rest of `receive` for a command: read a message and interpret it as a response. */
  function ReceiveResponse(codec: Codec, c: Connection): (r: Reply<Value>)
    ensures r.conn.messageId == c.messageId && r.conn.sessionId == c.sessionId
    ensures r.conn.socket.wire == c.socket.wire
    ensures r.result.Failure? && r.result.error.Marionette? ==> r.result.error.error != Null
  {
    var message := ReceiveMessage(codec, c);
    match message.result
    case Failure(e) => Reply(message.conn, Failure(e))
    case Success(v) => Reply(message.conn, Messages.Interpret(v))
  }

  /** The response outcome on the socket: a response frame with a null error
      gives its reply, one with any other error raises exactly that error. */
  lemma ReceiveResponseOutcome(codec: Codec, c: Connection, id: Value, error: Value, reply: Value,
                               rest: seq<byte>, more: seq<seq<byte>>)
    requires Faithful(codec)
    requires c.unprocessed == []
    requires c.socket.incoming == [Frame.Encode(codec.dumps(Messages.Response(id, error, reply))) + rest] + more
    ensures var r := ReceiveResponse(codec, c);
      && r.result == (if error == Null then Success(reply) else Failure(Marionette(error)))
      && r.conn == c.(unprocessed := rest, socket := c.socket.(incoming := more))
  {
    ReceiveMessageDecodes(codec, c, Messages.Response(id, error, reply), rest, more);
    Messages.ResponseOutcome(id, error, reply);
  }

  /** The response outcome however the frame is cut into reads and whatever
      is already buffered: once the first k reads complete a response frame,
      a null error gives its reply and any other error raises exactly it. */
  lemma ReceiveResponseFinds(codec: Codec, c: Connection, k: nat, header: seq<byte>,
                             id: Value, error: Value, reply: Value, rest: seq<byte>)
    requires Faithful(codec)
    requires 1 <= k <= |c.socket.incoming|
    requires Frame.Splits(c.unprocessed + Flatten(c.socket.incoming[..k]), header,
                          codec.dumps(Messages.Response(id, error, reply)), rest)
    ensures ReceiveResponse(codec, c).result == (if error == Null then Success(reply) else Failure(Marionette(error)))
  {
    var payload := codec.dumps(Messages.Response(id, error, reply));
    Inbound.ReceiveFinds(c.unprocessed, c.socket.incoming, k, header, payload, rest);
    Messages.ResponseOutcome(id, error, reply);
  }

  /** The frame the browser answers command id with: a response carrying
      reply and no error. */
  function ReplyFrame(codec: Codec, id: nat, reply: Value): seq<byte>
  {
    Frame.Encode(codec.dumps(Messages.Response(Int(id), Null, reply)))
  }

  /** The reads of a browser answering the commands from id on, each read
      one whole response frame. */
  function Replies(codec: Codec, id: nat, replies: seq<Value>): seq<seq<byte>>
    decreases |replies|
  {
    if |replies| == 0 then [] else [ReplyFrame(codec, id, replies[0])] + Replies(codec, id + 1, replies[1..])
  }

  /** Nothing is buffered, and the browser will answer the next commands with
      replies, in order, and then close the stream. */
  ghost predicate Answers(codec: Codec, c: Connection, replies: seq<Value>)
  {
    c.unprocessed == [] && c.socket.incoming == Replies(codec, c.messageId, replies) + [[]]
  }

  /** `send`: stamp the command with the current id, write its frame, wait
      for the response; the id goes up by one in every case, also when the
      response raises. */
  function Send(codec: Codec, c: Connection, call: Call): (r: Reply<Value>)
    ensures OneCommand(codec, c, r.conn, call)
    ensures r.conn.sessionId == c.sessionId
  {
    var frame := CommandFrame(codec, c.messageId, call);
    var r := ReceiveResponse(codec, c.(socket := c.socket.(wire := c.socket.wire + [frame])));
    Reply(r.conn.(messageId := c.messageId + 1), r.result)
  }

  /** Against a browser that answers it, a command receives exactly the next
      reply, and the browser goes on answering the later ones. */
  lemma SendAnswered(codec: Codec, c: Connection, call: Call, replies: seq<Value>)
    requires Faithful(codec)
    requires |replies| > 0 && Answers(codec, c, replies)
    ensures var sent := Send(codec, c, call);
      && sent.result == Success(replies[0])
      && Answers(codec, sent.conn, replies[1..])
      && sent.conn.sessionId == c.sessionId
  {
    var next := c.(socket := c.socket.(wire := c.socket.wire + [CommandFrame(codec, c.messageId, call)]));
    var more := Replies(codec, c.messageId + 1, replies[1..]) + [[]];
    var frame := ReplyFrame(codec, c.messageId, replies[0]);
    assert frame + [] == frame;
    assert Replies(codec, c.messageId, replies) == [frame] + Replies(codec, c.messageId + 1, replies[1..]);
    assert next.socket.incoming == [frame + []] + more;
    ReceiveResponseOutcome(codec, next, Int(c.messageId), Null, replies[0], [], more);
  }

  /** `newSession`: the first command; its reply's `sessionId` is stored. */
  function NewSession(codec: Codec, c: Connection): (r: Reply<()>)
    ensures OneCommand(codec, c, r.conn, NewSessionCall)
    ensures var sent := Send(codec, c, NewSessionCall);
      r.result.Success? <==> sent.result.Success? && Messages.Field(sent.result.value, "sessionId").Success?
    ensures r.result.Success? ==>
      Some(Messages.Field(Send(codec, c, NewSessionCall).result.value, "sessionId").value) == r.conn.sessionId
    ensures r.result.Failure? ==> r.conn.sessionId == c.sessionId
    // a failed send raises its own error; a reply without a session id raises KeyError
    ensures var sent := Send(codec, c, NewSessionCall);
      && (sent.result.Failure? ==> r.result == Failure(sent.result.error))
      && (sent.result.Success? && Messages.Field(sent.result.value, "sessionId").Failure? ==>
            r.result == Failure(Messages.Field(sent.result.value, "sessionId").error))
  {
    var sent := Send(codec, c, NewSessionCall);
    match sent.result
    case Failure(e) => Reply(sent.conn, Failure(e))
    case Success(reply) =>
      match Messages.Field(reply, "sessionId")
      case Failure(e) => Reply(sent.conn, Failure(e))
      case Success(id) => Reply(sent.conn.(sessionId := Some(id)), Success(()))
  }

  /** The handshake the browser sends first is one this client accepts. */
  ghost predicate HandshakeAccepted(codec: Codec, socket: Socket)
  {
    var hello := ReceiveMessage(codec, Connection(0, [], socket, None));
    hello.result.Success? && Messages.Accepts(hello.result.value)
  }

  /** A handshake that arrives as one frame is accepted exactly when it names
      gecko and protocol 3. */
  lemma HandshakeReceived(codec: Codec, socket: Socket, handshake: Value, rest: seq<byte>, more: seq<seq<byte>>)
    requires Faithful(codec)
    requires socket.incoming == [Frame.Encode(codec.dumps(handshake)) + rest] + more
    ensures HandshakeAccepted(codec, socket) <==> Messages.Accepts(handshake)
  {
    ReceiveMessageDecodes(codec, Connection(0, [], socket, None), handshake, rest, more);
  }

  /** The constructor: start at message id 0, read the handshake (which uses
      no id), check it, and open the session with the first command. */
  function Connect(codec: Codec, socket: Socket): (r: Reply<()>)
    ensures r.conn.socket.wire == socket.wire + if HandshakeAccepted(codec, socket) then [CommandFrame(codec, 0, NewSessionCall)] else []
    ensures r.conn.messageId == if HandshakeAccepted(codec, socket) then 1 else 0
    ensures r.result.Success? ==> HandshakeAccepted(codec, socket) && r.conn.sessionId.Some?
    // an accepted handshake is followed by exactly the session request
    ensures HandshakeAccepted(codec, socket) ==>
      r == NewSession(codec, ReceiveMessage(codec, Connection(0, [], socket, None)).conn)
    // a rejected one raises what the check reports, or what reading it raised
    ensures var hello := ReceiveMessage(codec, Connection(0, [], socket, None));
      && (hello.result.Failure? ==> r.result == Failure(hello.result.error))
      && (hello.result.Success? && !Messages.Accepts(hello.result.value) ==>
            r.result == Failure(Messages.CheckHandshake(hello.result.value).error))
  {
    var hello := ReceiveMessage(codec, Connection(0, [], socket, None));
    match hello.result
    case Failure(e) => Reply(hello.conn, Failure(e))
    case Success(handshake) =>
      match Messages.CheckHandshake(handshake)
      case Failure(e) => Reply(hello.conn, Failure(e))
      case Success(_) => NewSession(codec, hello.conn)
  }

  /** `navigateTo`: the reply is not used. */
  function Navigate(codec: Codec, c: Connection, url: string): (r: Reply<()>)
    ensures OneCommand(codec, c, r.conn, NavigateCall(url))
    ensures var sent := Send(codec, c, NavigateCall(url));
      && (r.result.Success? <==> sent.result.Success?)
      && (sent.result.Failure? ==> r.result == Failure(sent.result.error))
  {
    var sent := Send(codec, c, NavigateCall(url));
    match sent.result
    case Failure(e) => Reply(sent.conn, Failure(e))
    case Success(_) => Reply(sent.conn, Success(()))
  }

  /** `executeJavascript`: a script error arrives as the response's error. */
  function ExecuteScript(codec: Codec, c: Connection, script: string): (r: Reply<()>)
    ensures OneCommand(codec, c, r.conn, ExecuteScriptCall(script))
    ensures var sent := Send(codec, c, ExecuteScriptCall(script));
      && (r.result.Success? <==> sent.result.Success?)
      && (sent.result.Failure? ==> r.result == Failure(sent.result.error))
  {
    var sent := Send(codec, c, ExecuteScriptCall(script));
    match sent.result
    case Failure(e) => Reply(sent.conn, Failure(e))
    case Success(_) => Reply(sent.conn, Success(()))
  }

  /** `findElementIdByCssSelector`: the reference of the first element found;
      an empty result raises IndexError. */
  function FindElementId(codec: Codec, c: Connection, selector: string): (r: Reply<Value>)
    ensures OneCommand(codec, c, r.conn, FindElementsCall(selector))
    ensures var sent := Send(codec, c, FindElementsCall(selector));
      && (sent.result.Success? ==> r.result == Messages.FirstElementId(sent.result.value))
      && (sent.result.Failure? ==> r.result == Failure(sent.result.error))
      && (sent.result == Success(Arr([])) ==> r.result == Failure(IndexError))
  {
    var sent := Send(codec, c, FindElementsCall(selector));
    match sent.result
    case Failure(e) => Reply(sent.conn, Failure(e))
    case Success(found) => Reply(sent.conn, Messages.FirstElementId(found))
  }

  /** A screenshot as `takeScreenshotFromElement` obtains it: the response's
      reply, and the image bytes decoded from it. */
  datatype Screenshot = Screenshot(reply: Value, png: seq<byte>)

  /** `takeScreenshotFromElement`: the decoded image bytes, which the source
      then writes to the output file, with the reply they were decoded from. */
  function TakeScreenshot(codec: Codec, c: Connection, elementId: Value): (r: Reply<Screenshot>)
    ensures OneCommand(codec, c, r.conn, TakeScreenshotCall(elementId))
    ensures var sent := Send(codec, c, TakeScreenshotCall(elementId));
      && (r.result.Success? ==> sent.result == Success(r.result.value.reply))
      && (r.result.Success? ==> Messages.ScreenshotData(codec, r.result.value.reply) == Success(r.result.value.png))
      && (sent.result.Success? && Messages.ScreenshotData(codec, sent.result.value).Failure? ==>
            r.result == Failure(Messages.ScreenshotData(codec, sent.result.value).error))
      && (sent.result.Success? && Messages.ScreenshotData(codec, sent.result.value).Success? ==> r.result.Success?)
      && (sent.result.Failure? ==> r.result == Failure(sent.result.error))
  {
    var sent := Send(codec, c, TakeScreenshotCall(elementId));
    match sent.result
    case Failure(e) => Reply(sent.conn, Failure(e))
    case Success(reply) =>
      match Messages.ScreenshotData(codec, reply)
      case Failure(e) => Reply(sent.conn, Failure(e))
      case Success(png) => Reply(sent.conn, Success(Screenshot(reply, png)))
  }

  /** `end`: send the forced quit, then insist that the next read from the
      socket finds the stream closed. */
  function End(codec: Codec, c: Connection): (r: Reply<()>)
    ensures OneCommand(codec, c, r.conn, QuitCall)
    ensures var sent := Send(codec, c, QuitCall);
      r.result.Success? <==>
        sent.result.Success? && |sent.conn.socket.incoming| > 0 && sent.conn.socket.incoming[0] == []
    // a failed send raises its own error; bytes where the close should be raise DataAfterQuit
    ensures var sent := Send(codec, c, QuitCall);
      && (sent.result.Failure? ==> r.result == Failure(sent.result.error))
      && (sent.result.Success? && |sent.conn.socket.incoming| > 0 && sent.conn.socket.incoming[0] != [] ==>
            r.result == Failure(DataAfterQuit))
  {
    var sent := Send(codec, c, QuitCall);
    var incoming := sent.conn.socket.incoming;
    if sent.result.Failure? then Reply(sent.conn, Failure(sent.result.error))
    else if |incoming| == 0 then Reply(sent.conn, Failure(Stalled))
    else
      var closed := sent.conn.(socket := sent.conn.socket.(incoming := incoming[1..]));
      if incoming[0] == [] then Reply(closed, Success(())) else Reply(closed, Failure(DataAfterQuit))
  }

  /** Against a browser that answers them, each operation returns what the
      reply gives, and the browser goes on answering the later commands. */
  lemma NavigateAnswered(codec: Codec, c: Connection, url: string, replies: seq<Value>)
    requires Faithful(codec)
    requires |replies| > 0 && Answers(codec, c, replies)
    ensures var r := Navigate(codec, c, url);
      r.result == Success(()) && Answers(codec, r.conn, replies[1..])
  {
    SendAnswered(codec, c, NavigateCall(url), replies);
  }

  lemma ExecuteScriptAnswered(codec: Codec, c: Connection, script: string, replies: seq<Value>)
    requires Faithful(codec)
    requires |replies| > 0 && Answers(codec, c, replies)
    ensures var r := ExecuteScript(codec, c, script);
      r.result == Success(()) && Answers(codec, r.conn, replies[1..])
  {
    SendAnswered(codec, c, ExecuteScriptCall(script), replies);
  }

  lemma FindElementIdAnswered(codec: Codec, c: Connection, selector: string, replies: seq<Value>)
    requires Faithful(codec)
    requires |replies| > 0 && Answers(codec, c, replies)
    ensures var r := FindElementId(codec, c, selector);
      r.result == Messages.FirstElementId(replies[0]) && Answers(codec, r.conn, replies[1..])
  {
    SendAnswered(codec, c, FindElementsCall(selector), replies);
  }

  lemma TakeScreenshotAnswered(codec: Codec, c: Connection, elementId: Value, png: seq<byte>, replies: seq<Value>)
    requires Faithful(codec)
    requires |replies| > 0 && Answers(codec, c, replies)
    requires Messages.ScreenshotData(codec, replies[0]) == Success(png)
    ensures var r := TakeScreenshot(codec, c, elementId);
      r.result == Success(Screenshot(replies[0], png)) && Answers(codec, r.conn, replies[1..])
  {
    SendAnswered(codec, c, TakeScreenshotCall(elementId), replies);
  }

  /** The quit is answered, and then the browser closes the stream. */
  lemma EndAnswered(codec: Codec, c: Connection, quit: Value)
    requires Faithful(codec)
    requires Answers(codec, c, [quit])
    ensures End(codec, c).result == Success(())
  {
    SendAnswered(codec, c, QuitCall, [quit]);
    assert Send(codec, c, QuitCall).conn.socket.incoming == [[]];
  }

  /** A browser whose handshake is accepted and whose session reply carries an
      id: the constructor succeeds and stores that id. */
  lemma ConnectAnswered(codec: Codec, socket: Socket, handshake: Value, replies: seq<Value>)
    requires Faithful(codec)
    requires Messages.Accepts(handshake)
    requires |replies| > 0 && Messages.Field(replies[0], "sessionId").Success?
    requires socket.incoming == [Frame.Encode(codec.dumps(handshake))] + Replies(codec, 0, replies) + [[]]
    ensures var r := Connect(codec, socket);
      && r.result == Success(())
      && r.conn.sessionId == Some(Messages.Field(replies[0], "sessionId").value)
      && Answers(codec, r.conn, replies[1..])
  {
    var start := Connection(0, [], socket, None);
    var hello := Frame.Encode(codec.dumps(handshake));
    var more := Replies(codec, 0, replies) + [[]];
    assert hello + [] == hello;
    assert socket.incoming == [hello + []] + more;
    ReceiveMessageDecodes(codec, start, handshake, [], more);
    var greeted := ReceiveMessage(codec, start).conn;
    assert Answers(codec, greeted, replies);
    SendAnswered(codec, greeted, NewSessionCall, replies);
  }

  /** Sending commands one after another on one connection, each exception
      caught and the connection used again: the outcome of every send. The
      commands carry consecutive ids and their frames reach the wire in order,
      whatever the responses were: a response that raised still advanced the id. */
  function SendEach(codec: Codec, c: Connection, calls: seq<Call>): (r: (Connection, seq<Result<Value>>))
    ensures |r.1| == |calls|
    ensures r.0.messageId == c.messageId + |calls| && r.0.sessionId == c.sessionId
    ensures r.0.socket.wire == c.socket.wire + Frames(codec, c.messageId, calls)
    decreases |calls|
  {
    if |calls| == 0 then (c, [])
    else
      var first := Send(codec, c, calls[0]);
      var rest := SendEach(codec, first.conn, calls[1..]);
      Extend(c.socket.wire, first.conn.socket.wire, rest.0.socket.wire,
             CommandFrame(codec, c.messageId, calls[0]), Frames(codec, c.messageId + 1, calls[1..]));
      (rest.0, [first.result] + rest.1)
  }

  /** With a JSON library that decodes what it encodes, the browser reads a
      command frame as exactly one frame holding exactly that command. */
  lemma PeerReadsCommand(codec: Codec, id: nat, call: Call)
    requires Faithful(codec)
    ensures var payload := codec.dumps(Messages.Command(id, call.name, call.args));
      && Frame.Extract(CommandFrame(codec, id, call)) == Frame.Found(Decimal.FormatBytes(|payload|), payload, [])
      && codec.loads(payload) == Some(Messages.Command(id, call.name, call.args))
  {
    var payload := codec.dumps(Messages.Command(id, call.name, call.args));
    Frame.ExtractEncoded(payload, []);
    assert Frame.Encode(payload) + [] == CommandFrame(codec, id, call);
  }
}

=== FILE: decimal.dfy ===
/** ASCII decimal numerals: the length prefix of a frame (written with `%d`, read
    back with `int(...)`) and the port number in the preferences file. */
module Decimal {
  import opened Base

  /** The ASCII code of digit 0. */
  const Zero: int := 48

  predicate IsDigitByte(b: byte) { Zero <= b as int < Zero + 10 }

  predicate IsDigitChar(c: char) { Zero <= c as int < Zero + 10 }

  predicate DigitBytes(s: seq<byte>) { forall i :: 0 <= i < |s| ==> IsDigitByte(s[i]) }

  predicate DigitChars(s: string) { forall i :: 0 <= i < |s| ==> IsDigitChar(s[i]) }

  /** `b"%d" % n`: the ASCII decimal numeral of n as bytes, without leading zeros. */
  function FormatBytes(n: nat): (s: seq<byte>)
    ensures 1 <= |s| && DigitBytes(s)
    ensures s[0] == Zero as byte ==> n == 0
    decreases n
  {
    if n < 10 then [(Zero + n) as byte] else FormatBytes(n / 10) + [(Zero + n % 10) as byte]
  }

  /** `str(n)`: the decimal numeral of n as text, without leading zeros. */
  function FormatChars(n: nat): (s: string)
    ensures 1 <= |s| && DigitChars(s)
    ensures s[0] == Zero as char ==> n == 0
    decreases n
  {
    if n < 10 then [(Zero + n) as char] else FormatChars(n / 10) + [(Zero + n % 10) as char]
  }

  /** The number a digit string denotes, most significant digit first; leading
      zeros are allowed, as in Python's `int`. */
  function ValueBytes(s: seq<byte>): nat
    requires DigitBytes(s)
    decreases |s|
  {
    if |s| == 0 then 0 else ValueBytes(s[..|s| - 1]) * 10 + (s[|s| - 1] as int - Zero)
  }

  function ValueChars(s: string): nat
    requires DigitChars(s)
    decreases |s|
  {
    if |s| == 0 then 0 else ValueChars(s[..|s| - 1]) * 10 + (s[|s| - 1] as int - Zero)
  }

  /** `int(s.decode())` restricted to ASCII digits: None when s is empty or holds
      anything but the digits 0-9. */
  function ParseBytes(s: seq<byte>): (r: Option<nat>)
    ensures r.Some? <==> 1 <= |s| && DigitBytes(s)
  {
    if 1 <= |s| && DigitBytes(s) then Some(ValueBytes(s)) else None
  }

  /** `int(s)` restricted to ASCII digits, for text. */
  function ParseChars(s: string): (r: Option<nat>)
    ensures r.Some? <==> 1 <= |s| && DigitChars(s)
  {
    if 1 <= |s| && DigitChars(s) then Some(ValueChars(s)) else None
  }

  /** The numeral `%d` writes for a frame length parses back to that length. */
  lemma {:induction false} ParseFormatBytes(n: nat)
    ensures ParseBytes(FormatBytes(n)) == Some(n)
    decreases n
  {
    if n >= 10 {
      var s := FormatBytes(n);
      assert s[..|s| - 1] == FormatBytes(n / 10);
      ParseFormatBytes(n / 10);
      assert ValueBytes(s) == ValueBytes(FormatBytes(n / 10)) * 10 + n % 10;
    }
  }

  /** The numeral written for a port parses back to that port. */
  lemma {:induction false} ParseFormatChars(n: nat)
    ensures ParseChars(FormatChars(n)) == Some(n)
    decreases n
  {
    if n >= 10 {
      var s := FormatChars(n);
      assert s[..|s| - 1] == FormatChars(n / 10);
      ParseFormatChars(n / 10);
      assert ValueChars(s) == ValueChars(FormatChars(n / 10)) * 10 + n % 10;
    }
  }
}

=== FILE: errors.dfy ===
/** The exceptions the client can raise, as a tagged variant. */
module Errors {
  import opened Base
  import Json

  datatype Error =
    /** `bytes.index` found no colon in the receive buffer (ValueError). */
    | NoDelimiter
    /** The bytes before the colon are not a decimal numeral (ValueError from `int`). */
    | BadHeader(header: seq<byte>)
    /** The socket has nothing more to deliver: the client would block forever. */
    | Stalled
    /** A frame payload is not a JSON document. */
    | MalformedJson
    /** A response is not a four-element sequence (unpacking failed). */
    | UnpackMismatch
    /** A response's first element is not `CODE_RESPONSE` (AssertionError). */
    | NotAResponse(code: Json.Value)
    /** The browser answered with a non-null error (MarionetteException). */
    | Marionette(error: Json.Value)
    /** A lookup found no member or element under that key (KeyError). */
    | KeyError(key: Json.Value)
    /** A lookup by position ran past the end (IndexError). */
    | IndexError
    /** A value has the wrong type for the operation (TypeError, AttributeError). */
    | WrongType
    /** The handshake names another application than gecko. */
    | WrongApplication(application: Json.Value)
    /** The handshake declares another protocol version than 3. */
    | WrongProtocol(version: Json.Value)
    /** The screenshot data is not base64. */
    | BadBase64
    /** Bytes arrived after the quit command was answered (AssertionError). */
    | DataAfterQuit
    /** The port variable was read before any poll assigned it (UnboundLocalError). */
    | PortUnbound

  datatype Result<+T> = Success(value: T) | Failure(error: Error)
}

=== FILE: frame.dfy ===
/** The length-prefixed framing of the Marionette wire protocol: a frame is the
    ASCII decimal length of its payload, a colon, then the payload bytes. */
module Frame {
  import opened Base
  import Decimal

  /** The delimiter between the length prefix and the payload, `b":"`. */
  const Colon: byte := 58

  /** The position of the first x in s, as `bytes.index` finds it. */
  function FirstIndex(s: seq<byte>, x: byte): (r: Option<nat>)
    ensures r.None? <==> x !in s
    ensures r.Some? ==> r.value < |s| && s[r.value] == x && x !in s[..r.value]
  {
    if |s| == 0 then None
    else if s[0] == x then Some(0)
    else
      match FirstIndex(s[1..], x)
      case None => None
      case Some(i) =>
        assert s[..i + 1] == [s[0]] + s[1..][..i];
        Some(i + 1)
  }

  /** The first x in h + [x] + t is the one after h. */
  lemma FirstIndexAfter(h: seq<byte>, t: seq<byte>, x: byte)
    requires x !in h
    ensures FirstIndex(h + [x] + t, x) == Some(|h|)
  {
    var s := h + [x] + t;
    var r := FirstIndex(s, x);
    assert s[|h|] == x;
  }

  /** The outbound frame of a payload, `b"%d:%b" % (len(payload), payload)`. */
  function Encode(payload: seq<byte>): seq<byte>
  {
    Decimal.FormatBytes(|payload|) + [Colon] + payload
  }

  /** buf starts with a colon-free header followed by the delimiter. */
  predicate Headed(buf: seq<byte>, header: seq<byte>)
  {
    |header| < |buf| && buf[..|header|] == header && buf[|header|] == Colon && Colon !in header
  }

  /** buf is a header declaring |payload| bytes, the delimiter, the payload, and
      whatever follows it. */
  predicate Splits(buf: seq<byte>, header: seq<byte>, payload: seq<byte>, rest: seq<byte>)
  {
    && buf == header + [Colon] + payload + rest
    && Colon !in header
    && Decimal.ParseBytes(header) == Some(|payload|)
  }

  /** buf is a header declaring n bytes and the delimiter, but fewer than n bytes follow. */
  predicate Pending(buf: seq<byte>, header: seq<byte>, n: nat)
  {
    Headed(buf, header) && Decimal.ParseBytes(header) == Some(n) && |buf| < |header| + 1 + n
  }

  /** Bytes appended after a split buffer join what follows the payload. */
  lemma SplitsAppend(buf: seq<byte>, header: seq<byte>, payload: seq<byte>, rest: seq<byte>, tail: seq<byte>)
    requires Splits(buf, header, payload, rest)
    ensures Splits(buf + tail, header, payload, rest + tail)
  {
  }

  /** Bytes appended after a malformed header change nothing: the header
      still ends at the same first colon. */
  lemma BadHeaderAppend(buf: seq<byte>, header: seq<byte>, tail: seq<byte>)
    requires Headed(buf, header) && Decimal.ParseBytes(header).None?
    ensures Extract(buf + tail) == BadHeader(header)
  {
    var after := buf[|header| + 1..] + tail;
    assert buf + tail == header + [Colon] + after;
    FirstIndexAfter(header, after, Colon);
    assert (buf + tail)[..|header|] == header;
  }

  /** What one inspection of the receive buffer finds. */
  datatype Scan =
    | Found(header: seq<byte>, payload: seq<byte>, rest: seq<byte>)
    | Partial(header: seq<byte>, declared: nat)
    | NoColon
    | BadHeader(header: seq<byte>)

  /** One inspection of the buffer in `receive`: locate the first colon, parse
      the prefix as the length N, and take exactly N bytes after the colon if
      they are all there. */
  function Extract(buf: seq<byte>): (r: Scan)
    ensures r.NoColon? <==> Colon !in buf
    ensures r.Found? ==> Splits(buf, r.header, r.payload, r.rest)
    ensures r.Partial? ==> Pending(buf, r.header, r.declared)
    ensures r.BadHeader? ==> Headed(buf, r.header) && Decimal.ParseBytes(r.header).None?
  {
    match FirstIndex(buf, Colon)
    case None => NoColon
    case Some(k) =>
      var header := buf[..k];
      match Decimal.ParseBytes(header)
      case None => BadHeader(header)
      case Some(n) =>
        if |buf| < k + 1 + n then
          Partial(header, n)
        else
          var payload, rest := buf[k + 1..k + 1 + n], buf[k + 1 + n..];
          assert buf == header + [Colon] + payload + rest;
          Found(header, payload, rest)
  }

  /** A buffer that splits into a frame is always cut there: the frame is
      delimited by the first colon and exactly the declared bytes are taken, so
      colons inside the payload never matter. */
  lemma ExtractSplits(buf: seq<byte>, header: seq<byte>, payload: seq<byte>, rest: seq<byte>)
    requires Splits(buf, header, payload, rest)
    ensures Extract(buf) == Found(header, payload, rest)
  {
    FirstIndexAfter(header, payload + rest, Colon);
    assert buf == header + [Colon] + (payload + rest);
    assert buf[..|header|] == header;
    var k := |header|;
    assert buf[k + 1..k + 1 + |payload|] == payload;
    assert buf[k + 1 + |payload|..] == rest;
  }

  /** A buffer holding a header and only part of the declared payload yields no frame. */
  lemma ExtractPending(buf: seq<byte>, header: seq<byte>, n: nat)
    requires Pending(buf, header, n)
    ensures Extract(buf) == Partial(header, n)
  {
    assert buf == header + [Colon] + buf[|header| + 1..];
    FirstIndexAfter(header, buf[|header| + 1..], Colon);
  }

  /** A prefix of a buffer that holds a frame holds that same frame, or not
      all of it yet: never a malformed header and never another payload. */
  lemma ExtractPrefix(data: seq<byte>, later: seq<byte>, header: seq<byte>, payload: seq<byte>, rest: seq<byte>)
    requires Splits(data + later, header, payload, rest)
    ensures !Extract(data).BadHeader?
    ensures Extract(data).Found? ==> Extract(data).payload == payload
    ensures later == [] ==> Extract(data) == Found(header, payload, rest)
  {
    if later == [] {
      assert data + later == data;
    }
    ExtractSplits(data + later, header, payload, rest);
    match Extract(data)
    case Found(h, p, r) =>
      SplitsAppend(data, h, p, r, later);
      ExtractSplits(data + later, h, p, r + later);
    case BadHeader(h) =>
      BadHeaderAppend(data, h, later);
    case _ =>
  }

  /** Frame round trip: a buffer that starts with the encoding of P gives back
      exactly P and leaves exactly what followed it. */
  lemma ExtractEncoded(payload: seq<byte>, rest: seq<byte>)
    ensures Extract(Encode(payload) + rest) == Found(Decimal.FormatBytes(|payload|), payload, rest)
  {
    var header := Decimal.FormatBytes(|payload|);
    Decimal.ParseFormatBytes(|payload|);
    assert Colon !in header by {
      forall i | 0 <= i < |header| ensures header[i] != Colon {
        assert Decimal.IsDigitByte(header[i]);
      }
    }
    ExtractSplits(Encode(payload) + rest, header, payload, rest);
  }

  /** Any proper prefix of a frame yields no frame: with no colon yet while the
      cut falls inside the length prefix, as a partial frame after it. */
  lemma ExtractTruncated(payload: seq<byte>, k: nat)
    requires k < |Encode(payload)|
    ensures var header := Decimal.FormatBytes(|payload|);
      if k <= |header| then Extract(Encode(payload)[..k]) == NoColon
      else Extract(Encode(payload)[..k]) == Partial(header, |payload|)
  {
    var header := Decimal.FormatBytes(|payload|);
    var frame := Encode(payload);
    assert Colon !in header by {
      forall i | 0 <= i < |header| ensures header[i] != Colon {
        assert Decimal.IsDigitByte(header[i]);
      }
    }
    if k <= |header| {
      assert frame[..k] == header[..k];
      assert Colon !in frame[..k] by {
        forall i | 0 <= i < k ensures frame[..k][i] != Colon {
          assert frame[..k][i] == header[i];
        }
      }
    } else {
      Decimal.ParseFormatBytes(|payload|);
      assert frame[..k][..|header|] == header;
      assert Pending(frame[..k], header, |payload|);
      ExtractPending(frame[..k], header, |payload|);
    }
  }
}

=== FILE: inbound.dfy ===
/** The receive loop of `MarionetteConnection.receive`: append one read to the
    buffer of unprocessed bytes, then inspect the buffer for a complete frame;
    repeat until one is found or an error is raised. */
module Inbound {
  import opened Base
  import opened Errors
  import Decimal
  import Frame

  /** How the loop treats a buffer that holds no colon after a read. */
  datatype ColonRule =
    /** As written: `bytes.index` raises ValueError. */
    | Raise
    /** As the `colonpos != -1` guard intends: read more. */
    | Wait

  /** The outcome of one receive: the payload or the error, the buffer left
      behind, and the reads not yet consumed. */
  datatype Received = Received(result: Result<seq<byte>>, buffer: seq<byte>, incoming: seq<seq<byte>>)

  /** Receive one frame from `buffer` followed by the successive results of
      `recv` in `incoming`. When these run out the socket would block, which
      the model reports as Stalled. */
  function Receive(rule: ColonRule, buffer: seq<byte>, incoming: seq<seq<byte>>): (r: Received)
    // no byte is lost: the payload and its header are cut from the front of
    // the stream, everything else stays buffered or unread
    ensures r.result.Success? ==>
      exists header :: Frame.Splits(buffer + Flatten(incoming), header, r.result.value, r.buffer + Flatten(r.incoming))
    ensures r.result.Failure? ==> buffer + Flatten(incoming) == r.buffer + Flatten(r.incoming)
    // reads are consumed in order, and at least one before any inspection
    ensures |r.incoming| <= |incoming| && r.incoming == incoming[|incoming| - |r.incoming|..]
    ensures |incoming| == 0 ==> r == Received(Failure(Stalled), buffer, [])
    ensures |incoming| > 0 ==> |r.incoming| < |incoming|
    // the only errors are a missing colon (as written) and a malformed length
    ensures r.result.Failure? ==> r.result.error in {Stalled, NoDelimiter} || r.result.error.BadHeader?
    ensures r.result == Failure(NoDelimiter) ==> rule == Raise && Frame.Colon !in r.buffer
    // running out of reads means every read was taken
    ensures r.result == Failure(Stalled) ==> r.incoming == []
    ensures r.result.Failure? && r.result.error.BadHeader? ==>
      Frame.Headed(r.buffer, r.result.error.header) && Decimal.ParseBytes(r.result.error.header).None?
    decreases |incoming|
  {
    if |incoming| == 0 then
      Received(Failure(Stalled), buffer, [])
    else
      var data := buffer + incoming[0];
      assert buffer + Flatten(incoming) == data + Flatten(incoming[1..]) by {
        FlattenFirst(buffer, incoming);
      }
      match Frame.Extract(data)
      case Found(header, payload, rest) =>
        assert Frame.Splits(buffer + Flatten(incoming), header, payload, rest + Flatten(incoming[1..])) by {
          Frame.SplitsAppend(data, header, payload, rest, Flatten(incoming[1..]));
        }
        Received(Success(payload), rest, incoming[1..])
      case Partial(_, _) =>
        Receive(rule, data, incoming[1..])
      case NoColon =>
        if rule == Raise then Received(Failure(NoDelimiter), data, incoming[1..])
        else Receive(rule, data, incoming[1..])
      case BadHeader(header) =>
        Received(Failure(BadHeader(header)), data, incoming[1..])
  }

  /** Appending the first read to the buffer keeps the stream of bytes. */
  lemma FlattenFirst(buffer: seq<byte>, incoming: seq<seq<byte>>)
    requires |incoming| > 0
    ensures buffer + Flatten(incoming) == (buffer + incoming[0]) + Flatten(incoming[1..])
  {
  }

  /** The `while True` loop itself, computing what Receive specifies. */
  method ReceiveLoop(rule: ColonRule, buffer: seq<byte>, incoming: seq<seq<byte>>) returns (r: Received)
    ensures r == Receive(rule, buffer, incoming)
  {
    var unprocessed, pending := buffer, incoming;
    while |pending| > 0
      invariant Receive(rule, unprocessed, pending) == Receive(rule, buffer, incoming)
      decreases |pending|
    {
      unprocessed, pending := unprocessed + pending[0], pending[1..];
      match Frame.Extract(unprocessed)
      case Found(_, payload, rest) =>
        return Received(Success(payload), rest, pending);
      case Partial(_, _) =>
      case NoColon =>
        if rule == Raise {
          return Received(Failure(NoDelimiter), unprocessed, pending);
        }
      case BadHeader(header) =>
        return Received(Failure(BadHeader(header)), unprocessed, pending);
    }
    r := Received(Failure(Stalled), unprocessed, pending);
  }

  /** A partial frame yields nothing: the loop keeps the buffer, grown by the
      read, and goes on reading. */
  lemma PartialKeepsBuffer(rule: ColonRule, buffer: seq<byte>, chunk: seq<byte>, more: seq<seq<byte>>,
                           header: seq<byte>, n: nat)
    requires Frame.Pending(buffer + chunk, header, n)
    ensures Receive(rule, buffer, [chunk] + more) == Receive(rule, buffer + chunk, more)
    ensures Receive(rule, buffer, [chunk]) == Received(Failure(Stalled), buffer + chunk, [])
  {
    Frame.ExtractPending(buffer + chunk, header, n);
    assert ([chunk] + more)[1..] == more;
    assert [chunk][1..] == [];
  }

  /** As written, a read that leaves the buffer without a colon, or with a
      non-decimal prefix before the first colon, fails. */
  lemma MalformedFails(buffer: seq<byte>, chunk: seq<byte>, more: seq<seq<byte>>)
    requires Frame.Colon !in buffer + chunk || Frame.Extract(buffer + chunk).BadHeader?
    ensures Receive(Raise, buffer, [chunk] + more).result.Failure?
    ensures Frame.Colon !in buffer + chunk ==>
      Receive(Raise, buffer, [chunk] + more) == Received(Failure(NoDelimiter), buffer + chunk, more)
  {
    assert ([chunk] + more)[1..] == more;
  }

  /** Two frames delivered by one read: the first is returned and the second
      stays buffered whole; it is returned only once another read has been
      appended, and if none comes the loop blocks despite the complete frame. */
  lemma TwoFramesOneRead(rule: ColonRule, p1: seq<byte>, p2: seq<byte>, chunk: seq<byte>, more: seq<seq<byte>>)
    ensures Receive(rule, [], [Frame.Encode(p1) + Frame.Encode(p2)] + more)
         == Received(Success(p1), Frame.Encode(p2), more)
    ensures Receive(rule, Frame.Encode(p2), [chunk] + more) == Received(Success(p2), chunk, more)
    ensures Receive(rule, Frame.Encode(p2), []) == Received(Failure(Stalled), Frame.Encode(p2), [])
  {
    assert [] + (Frame.Encode(p1) + Frame.Encode(p2)) == Frame.Encode(p1) + Frame.Encode(p2);
    Frame.ExtractEncoded(p1, Frame.Encode(p2));
    assert ([Frame.Encode(p1) + Frame.Encode(p2)] + more)[1..] == more;
    Frame.ExtractEncoded(p2, chunk);
    assert ([chunk] + more)[1..] == more;
  }

  /** A read after which the buffer holds no frame yet, and no error, is
      simply absorbed into the buffer. */
  lemma AbsorbRead(rule: ColonRule, buffer: seq<byte>, incoming: seq<seq<byte>>)
    requires |incoming| > 0
    requires Frame.Extract(buffer + incoming[0]).Partial? || (rule == Wait && Frame.Extract(buffer + incoming[0]).NoColon?)
    ensures Receive(rule, buffer, incoming) == Receive(rule, buffer + incoming[0], incoming[1..])
  {
    var data := buffer + incoming[0];
    if Frame.Extract(data).Partial? {
      assert Receive(rule, buffer, incoming) == Receive(rule, data, incoming[1..]);
    } else {
      assert Receive(rule, buffer, incoming) == Receive(rule, data, incoming[1..]);
    }
  }

  /** A read after which the buffer starts with a complete frame returns it. */
  lemma DeliverRead(rule: ColonRule, buffer: seq<byte>, incoming: seq<seq<byte>>)
    requires |incoming| > 0 && Frame.Extract(buffer + incoming[0]).Found?
    ensures var scan := Frame.Extract(buffer + incoming[0]);
      Receive(rule, buffer, incoming) == Received(Success(scan.payload), scan.rest, incoming[1..])
  {
  }

  /** Under the intended rule, a frame that is complete once the first k reads
      have arrived is returned: the loop never gives up on a frame the stream
      holds, and never returns another payload. */
  lemma {:induction false} ReceiveFinds(buffer: seq<byte>, incoming: seq<seq<byte>>, k: nat,
                                        header: seq<byte>, payload: seq<byte>, rest: seq<byte>)
    requires 1 <= k <= |incoming|
    requires Frame.Splits(buffer + Flatten(incoming[..k]), header, payload, rest)
    ensures Receive(Wait, buffer, incoming).result == Success(payload)
    decreases k
  {
    var data := buffer + incoming[0];
    FlattenPrefix(buffer, incoming, k);
    Frame.ExtractPrefix(data, Flatten(incoming[1..][..k - 1]), header, payload, rest);
    if Frame.Extract(data).Found? {
      DeliverRead(Wait, buffer, incoming);
    } else {
      AbsorbRead(Wait, buffer, incoming);
      ReceiveFinds(data, incoming[1..], k - 1, header, payload, rest);
    }
  }

  /** The first k reads are the first read and then k - 1 more. */
  lemma FlattenPrefix(buffer: seq<byte>, incoming: seq<seq<byte>>, k: nat)
    requires 1 <= k <= |incoming|
    ensures buffer + Flatten(incoming[..k]) == (buffer + incoming[0]) + Flatten(incoming[1..][..k - 1])
  {
    FlattenFirst(buffer, incoming[..k]);
    assert incoming[..k][1..] == incoming[1..][..k - 1];
  }

  /** A frame split across two reads is reassembled, with the bytes after it
      left buffered. Under the as-written rule this needs the first read to
      reach past the colon. */
  lemma SplitFrame(rule: ColonRule, payload: seq<byte>, k: nat, rest: seq<byte>, more: seq<seq<byte>>)
    requires k < |Frame.Encode(payload)|
    requires rule == Wait || |Decimal.FormatBytes(|payload|)| < k
    ensures var frame := Frame.Encode(payload);
      Receive(rule, [], [frame[..k], frame[k..] + rest] + more) == Received(Success(payload), rest, more)
  {
    var frame := Frame.Encode(payload);
    var tail := [frame[k..] + rest] + more;
    assert [frame[..k], frame[k..] + rest] + more == [frame[..k]] + tail;
    FirstPiece(rule, payload, k, tail);
    SecondPiece(rule, payload, k, rest, more);
  }

  /** The first read of a split frame is only buffered. */
  lemma FirstPiece(rule: ColonRule, payload: seq<byte>, k: nat, tail: seq<seq<byte>>)
    requires k < |Frame.Encode(payload)|
    requires rule == Wait || |Decimal.FormatBytes(|payload|)| < k
    ensures var frame := Frame.Encode(payload);
      Receive(rule, [], [frame[..k]] + tail) == Receive(rule, frame[..k], tail)
  {
    var frame := Frame.Encode(payload);
    var incoming := [frame[..k]] + tail;
    Frame.ExtractTruncated(payload, k);
    assert [] + incoming[0] == frame[..k];
    assert incoming[1..] == tail;
    AbsorbRead(rule, [], incoming);
  }

  /** The second read of a split frame completes it. */
  lemma SecondPiece(rule: ColonRule, payload: seq<byte>, k: nat, rest: seq<byte>, more: seq<seq<byte>>)
    requires k < |Frame.Encode(payload)|
    ensures var frame := Frame.Encode(payload);
      Receive(rule, frame[..k], [frame[k..] + rest] + more) == Received(Success(payload), rest, more)
  {
    var frame := Frame.Encode(payload);
    var tail := [frame[k..] + rest] + more;
    Rejoin(frame, k, rest);
    Frame.ExtractEncoded(payload, rest);
    DeliverRead(rule, frame[..k], tail);
    assert tail[1..] == more;
  }

  /** As written, a first read that ends inside the length prefix raises
      instead of waiting for the rest of the frame. */
  lemma SplitPrefixRaises(payload: seq<byte>, k: nat, rest: seq<byte>, more: seq<seq<byte>>)
    requires k <= |Decimal.FormatBytes(|payload|)|
    ensures var frame := Frame.Encode(payload);
      Receive(Raise, [], [frame[..k], frame[k..] + rest] + more) == Received(Failure(NoDelimiter), frame[..k], [frame[k..] + rest] + more)
  {
    var frame := Frame.Encode(payload);
    var incoming := [frame[..k], frame[k..] + rest] + more;
    Frame.ExtractTruncated(payload, k);
    assert [] + frame[..k] == frame[..k];
    assert incoming[1..] == [frame[k..] + rest] + more;
  }

  /** A concrete instance: a 12-byte payload whose first read delivers only
      the `1` of its `12:` prefix. */
  lemma SplitPrefixExample()
    ensures var frame := Frame.Encode(seq(12, _ => 120 as byte));
      && Receive(Raise, [], [frame[..1], frame[1..]]).result == Failure(NoDelimiter)
      && Receive(Wait, [], [frame[..1], frame[1..]]).result == Success(seq(12, _ => 120 as byte))
  {
    var payload: seq<byte> := seq(12, _ => 120 as byte);
    var frame := Frame.Encode(payload);
    assert Decimal.FormatBytes(12) == [49, 50];
    SplitPrefixRaises(payload, 1, [], []);
    SplitFrame(Wait, payload, 1, [], []);
    assert frame[1..] + [] == frame[1..];
    assert [frame[..1], frame[1..]] + [] == [frame[..1], frame[1..]];
  }
}

=== FILE: json.dfy ===
/** Decoded JSON values, as Python's `json.loads` returns them, and the
    serialisation and base64 library calls, which the model leaves abstract. */
module Json {
  import opened Base

  /** A decoded JSON document. Objects keep their members in document order,
      as Python dictionaries do; floats are not modelled. */
  datatype Value =
    | Null
    | Bool(b: bool)
    | Int(i: int)
    | Str(s: string)
    | Arr(items: seq<Value>)
    | Obj(members: seq<Member>)

  datatype Member = Member(key: string, value: Value)

  /** The value stored under key, if any. */
  function Get(members: seq<Member>, key: string): (r: Option<Value>)
    ensures r.Some? ==> exists i :: 0 <= i < |members| && members[i] == Member(key, r.value)
    ensures r.None? <==> forall i :: 0 <= i < |members| ==> members[i].key != key
  {
    if |members| == 0 then None
    else if members[0].key == key then Some(members[0].value)
    else Get(members[1..], key)
  }

  /** The library calls the client makes: `json.dumps(...).encode("utf-8")`,
      `json.loads` (None: the bytes are not a JSON document) and
      `base64.b64decode` (None: the text is not base64). */
  datatype Codec = Codec(
    dumps: Value -> seq<byte>,
    loads: seq<byte> -> Option<Value>,
    b64decode: string -> Option<seq<byte>>)

  /** What the client relies on from the JSON library: decoding what was encoded
      gives the value back. This idealises the library on objects with a
      repeated key, where `json.loads` keeps the last value and `Get` the first;
      neither the client nor the browser sends such objects. */
  ghost predicate Faithful(codec: Codec)
  {
    forall v :: codec.loads(codec.dumps(v)) == Some(v)
  }
}

=== FILE: messages.dfy ===
/** The meaning of Marionette messages: command tuples the client builds,
    response tuples it interprets, the handshake it checks, and the lookups it
    performs on replies. */
module Messages {
  import opened Base
  import opened Json
  import opened Errors

  /** `CODE_COMMAND` and `CODE_RESPONSE`. */
  const CommandCode: int := 0
  const ResponseCode: int := 1

  /** `[CODE_COMMAND, message_id, command, arguments]`. */
  function Command(id: nat, name: string, args: Value): Value
  {
    Arr([Int(CommandCode), Int(id), Str(name), args])
  }

  /** A response as the browser sends it: `[1, id, error, reply]`. */
  function Response(id: Value, error: Value, reply: Value): Value
  {
    Arr([Int(ResponseCode), id, error, reply])
  }

  /** Python's `code == CODE_RESPONSE` on a decoded value, where `True == 1`. */
  predicate IsResponseCode(code: Value)
  {
    code == Int(ResponseCode) || code == Bool(true)
  }

  /** `code, _messageId, error, reply = v`: Python iterates a list's items, an
      object's keys or a string's characters, and needs exactly four of them. */
  function Unpack4(v: Value): (r: Result<seq<Value>>)
    ensures r.Success? ==> |r.value| == 4
    ensures r.Success? <==> (v.Arr? && |v.items| == 4) || (v.Obj? && |v.members| == 4) || (v.Str? && |v.s| == 4)
    ensures r.Success? && v.Arr? ==> r.value == v.items
    ensures r.Success? && !v.Arr? ==> r.value[0].Str?
    ensures r.Failure? ==> r.error == UnpackMismatch
  {
    match v
    case Arr(items) =>
      if |items| == 4 then Success(items) else Failure(UnpackMismatch)
    case Obj(members) =>
      if |members| == 4 then Success(seq(4, i requires 0 <= i < 4 => Str(members[i].key)))
      else Failure(UnpackMismatch)
    case Str(s) =>
      if |s| == 4 then Success(seq(4, i requires 0 <= i < 4 => Str([s[i]])))
      else Failure(UnpackMismatch)
    case _ => Failure(UnpackMismatch)
  }

  /** The non-handshake branch of `receive`: unpack the response, insist on
      the response code, raise the browser's error if there is one, and
      otherwise return the reply. The message id is ignored. */
  function Interpret(v: Value): (r: Result<Value>)
    ensures r.Success? ==>
      v.Arr? && |v.items| == 4 && IsResponseCode(v.items[0]) && v.items[2] == Null && r.value == v.items[3]
    ensures r.Failure? && r.error.Marionette? ==>
      v.Arr? && |v.items| == 4 && IsResponseCode(v.items[0]) && v.items[2] != Null && r.error.error == v.items[2]
    ensures r.Failure? ==> r.error == UnpackMismatch || r.error.NotAResponse? || r.error.Marionette?
  {
    match Unpack4(v)
    case Failure(e) => Failure(e)
    case Success(parts) =>
      if !IsResponseCode(parts[0]) then Failure(NotAResponse(parts[0]))
      else if parts[2] != Null then Failure(Marionette(parts[2]))
      else Success(parts[3])
  }

  /** A response never turns an error into a reply or a reply into an error:
      a non-null error is raised exactly as sent, a null error returns the
      reply, whatever the message id. */
  lemma ResponseOutcome(id: Value, error: Value, reply: Value)
    ensures Interpret(Response(id, error, reply))
         == if error == Null then Success(reply) else Failure(Marionette(error))
  {
  }

  /** A four-element message whose code is not the response code fails the
      assertion, whatever it carries. */
  lemma NonResponseRejected(code: Value, id: Value, error: Value, reply: Value)
    requires !IsResponseCode(code)
    ensures Interpret(Arr([code, id, error, reply])) == Failure(NotAResponse(code))
  {
  }

  /** `v[key]` on a decoded value. */
  function Field(v: Value, key: string): (r: Result<Value>)
    ensures r.Success? <==> v.Obj? && Get(v.members, key).Some?
    ensures r.Success? ==> r.value == Get(v.members, key).value
    ensures r.Failure? ==> r.error == (if v.Obj? then KeyError(Str(key)) else WrongType)
  {
    match v
    case Obj(members) =>
      (match Get(members, key)
       case Some(x) => Success(x)
       case None => Failure(KeyError(Str(key))))
    case _ => Failure(WrongType)
  }

  /** The handshake this client accepts: a gecko browser speaking protocol 3. */
  predicate Accepts(handshake: Value)
  {
    && handshake.Obj?
    && Get(handshake.members, "applicationType") == Some(Str("gecko"))
    && Get(handshake.members, "marionetteProtocol") == Some(Int(3))
  }

  /** The handshake check of the constructor, reporting the application type
      the browser declared when it is not gecko. */
  function CheckHandshake(handshake: Value): (r: Result<()>)
    ensures r.Success? <==> Accepts(handshake)
    ensures r.Failure? && r.error.WrongApplication? ==>
      Field(handshake, "applicationType") == Success(r.error.application) && r.error.application != Str("gecko")
    ensures r.Failure? && r.error.WrongProtocol? ==>
      Field(handshake, "applicationType") == Success(Str("gecko"))
      && Field(handshake, "marionetteProtocol") == Success(r.error.version) && r.error.version != Int(3)
  {
    match Field(handshake, "applicationType")
    case Failure(e) => Failure(e)
    case Success(application) =>
      if application != Str("gecko") then Failure(WrongApplication(application))
      else
        match Field(handshake, "marionetteProtocol")
        case Failure(e) => Failure(e)
        case Success(version) =>
          if version != Int(3) then Failure(WrongProtocol(version)) else Success(())
  }

  /** The handshake check as written: on a wrong application type the error
      message reads the member "application", which a handshake does not
      carry, so the rejection surfaces as a KeyError (or a TypeError when that
      member is not text). */
  function CheckHandshakeAsWritten(handshake: Value): (r: Result<()>)
    ensures r.Success? <==> Accepts(handshake)
  {
    match Field(handshake, "applicationType")
    case Failure(e) => Failure(e)
    case Success(application) =>
      if application != Str("gecko") then
        (match Field(handshake, "application")
         case Failure(e) => Failure(e)
         case Success(Str(s)) => Failure(WrongApplication(Str(s)))
         case Success(_) => Failure(WrongType))
      else
        match Field(handshake, "marionetteProtocol")
        case Failure(e) => Failure(e)
        case Success(version) =>
          if version != Int(3) then Failure(WrongProtocol(version)) else Success(())
  }

  /** Both checks let exactly the same handshakes through; they differ only in
      what a rejection of the application type reports. */
  lemma HandshakeChecksAgree(handshake: Value)
    ensures CheckHandshakeAsWritten(handshake).Success? == CheckHandshake(handshake).Success?
    ensures CheckHandshake(handshake).Failure? && !CheckHandshake(handshake).error.WrongApplication? ==>
      CheckHandshakeAsWritten(handshake) == CheckHandshake(handshake)
  {
  }

  /** A browser that is not gecko, with a handshake without an "application"
      member: the as-written check raises KeyError('application'), the
      corrected one names the application type. */
  lemma HandshakeMessageBug(application: string, version: Value)
    requires application != "gecko"
    ensures var h := Obj([Member("applicationType", Str(application)), Member("marionetteProtocol", version)]);
      && CheckHandshakeAsWritten(h) == Failure(KeyError(Str("application")))
      && CheckHandshake(h) == Failure(WrongApplication(Str(application)))
  {
  }

  /** `list(result[0].values())[0]`: the first value of the first element of
      the FindElements reply, which is the element reference. */
  function FirstElementId(result: Value): (r: Result<Value>)
    ensures r.Success? <==>
      result.Arr? && |result.items| > 0 && result.items[0].Obj? && |result.items[0].members| > 0
    ensures r.Success? ==> r.value == result.items[0].members[0].value
    ensures result == Arr([]) ==> r == Failure(IndexError)
  {
    var first: Result<Value> :=
      match result
      case Arr(items) => if |items| == 0 then Failure(IndexError) else Success(items[0])
      case Obj(_) => Failure(KeyError(Int(0)))
      case Str(s) => if |s| == 0 then Failure(IndexError) else Success(Str([s[0]]))
      case _ => Failure(WrongType);
    match first
    case Failure(e) => Failure(e)
    case Success(Obj(members)) =>
      if |members| == 0 then Failure(IndexError) else Success(members[0].value)
    case Success(_) => Failure(WrongType)
  }

  /** `base64.b64decode(result["value"])`: the image bytes of a screenshot reply. */
  function ScreenshotData(codec: Codec, result: Value): (r: Result<seq<byte>>)
    ensures r.Success? <==>
      Field(result, "value").Success? && Field(result, "value").value.Str?
      && codec.b64decode(Field(result, "value").value.s).Some?
    ensures r.Success? ==> Some(r.value) == codec.b64decode(Field(result, "value").value.s)
  {
    match Field(result, "value")
    case Failure(e) => Failure(e)
    case Success(Str(text)) =>
      (match codec.b64decode(text)
       case Some(data) => Success(data)
       case None => Failure(BadBase64))
    case Success(_) => Failure(WrongType)
  }
}

=== FILE: prefs.dfy ===
/** Port discovery: `MARIONETTE_PORT_REGEX` searched over the text of the
    profile's `prefs.js`, and the loop in `run` that polls that file until the
    browser has written a nonzero port. */
module Prefs {
  import opened Base
  import opened Errors
  import Decimal

  /** The pattern `^user_pref\("marionette.port", (\d+)\);$` in pieces: the
      text before the unescaped `.`, which matches any character but a newline,
      the text between it and the digits, and the text after them. */
  const Lead: string := "user_pref(\"marionette"
  const Middle: string := "port\", "
  const Tail: string := ");"

  /** A line the pattern matches: `sep` is what the `.` matched. */
  function PortLine(sep: char, digits: string): string
  {
    Lead + [sep] + Middle + digits + Tail
  }

  /** The text the profile's `prefs.js` is created with. */
  const InitialPrefs: string := "user_pref(\"marionette.port\", 0);\n"

  /** Where the digits start in a matching line. */
  const DigitsStart: nat := |Lead| + 1 + |Middle|

  /** The pattern matched against one whole line (a line holds no newline, and
      under MULTILINE `^` and `$` match exactly at its ends): the captured port. */
  function MatchLine(line: string): (r: Option<nat>)
    requires '\n' !in line
    ensures r.Some? ==> (
      && DigitsStart + |Tail| < |line|
      && var digits := line[DigitsStart..|line| - |Tail|];
         line == PortLine(line[|Lead|], digits) && Decimal.ParseChars(digits) == Some(r.value))
  {
    if |line| <= DigitsStart + |Tail| then None
    else
      var digits := line[DigitsStart..|line| - |Tail|];
      if line[..|Lead|] == Lead && line[|Lead| + 1..DigitsStart] == Middle && line[|line| - |Tail|..] == Tail then
        assert line == PortLine(line[|Lead|], digits);
        Decimal.ParseChars(digits)
      else None
  }

  /** Every line of the pattern's shape matches, capturing its digits: the
      converse of MatchLine's contract. */
  lemma MatchPortLine(sep: char, digits: string)
    requires sep != '\n' && '\n' !in digits
    ensures '\n' !in PortLine(sep, digits)
    ensures MatchLine(PortLine(sep, digits)) == Decimal.ParseChars(digits)
  {
    var line := PortLine(sep, digits);
    assert line[..|Lead|] == Lead;
    assert line[|Lead|] == sep;
    assert line[|Lead| + 1..DigitsStart] == Middle;
    assert line[|line| - |Tail|..] == Tail;
    if 1 <= |digits| {
      assert line[DigitsStart..|line| - |Tail|] == digits;
    }
  }

  /** The length of the first line of text. */
  function LineEnd(text: string): (n: nat)
    ensures n <= |text| && '\n' !in text[..n]
    ensures n < |text| ==> text[n] == '\n'
  {
    if |text| == 0 || text[0] == '\n' then 0
    else
      var n := LineEnd(text[1..]) + 1;
      assert text[..n] == [text[0]] + text[1..][..n - 1];
      n
  }

  /** `MARIONETTE_PORT_REGEX.search(text)`: the port on the first matching line. */
  function FirstPort(text: string): (r: Option<nat>)
    decreases |text|
  {
    var n := LineEnd(text);
    var line := text[..n];
    if MatchLine(line).Some? then MatchLine(line)
    else if n == |text| then None
    else FirstPort(text[n + 1..])
  }

  /** The search skips a line that does not match. */
  lemma FirstPortSkips(line: string, rest: string)
    requires '\n' !in line && MatchLine(line).None?
    ensures FirstPort(line + "\n" + rest) == FirstPort(rest)
  {
    var text := line + "\n" + rest;
    LineEndOf(line, rest);
    assert text[..|line|] == line;
    assert text[|line| + 1..] == rest;
  }

  /** The search stops at the first line that matches, whatever follows it. */
  lemma FirstPortTakes(line: string, rest: string)
    requires '\n' !in line && MatchLine(line).Some?
    ensures FirstPort(line + "\n" + rest) == MatchLine(line)
    ensures FirstPort(line) == MatchLine(line)
  {
    LineEndOf(line, rest);
    assert (line + "\n" + rest)[..|line|] == line;
    LineEndOf(line, []);
    assert line[..|line|] == line;
  }

  /** The first line of `line + "\n" + rest` is line, and so is all of line. */
  lemma LineEndOf(line: string, rest: string)
    requires '\n' !in line
    ensures LineEnd(line + "\n" + rest) == |line|
    ensures LineEnd(line) == |line|
    decreases |line|
  {
    if |line| > 0 {
      assert (line + "\n" + rest)[1..] == line[1..] + "\n" + rest;
      LineEndOf(line[1..], rest);
    }
  }

  /** Lines of text, each ended by a newline. */
  function Lines(ls: seq<string>): string
    decreases |ls|
  {
    if |ls| == 0 then [] else ls[0] + "\n" + Lines(ls[1..])
  }

  /** The search passes over any lines that do not match. */
  lemma {:induction false} SkipLines(ls: seq<string>, after: string)
    requires forall i :: 0 <= i < |ls| ==> '\n' !in ls[i] && MatchLine(ls[i]).None?
    ensures FirstPort(Lines(ls) + after) == FirstPort(after)
    decreases |ls|
  {
    if |ls| == 0 {
      assert Lines(ls) + after == after;
    } else {
      LinesFirst(ls, after);
      FirstPortSkips(ls[0], Lines(ls[1..]) + after);
      SkipLines(ls[1..], after);
    }
  }

  /** The port line reads back as n after any lines that do not match, such
      as the comments a rewritten `prefs.js` starts with. */
  lemma PortLineAmong(ls: seq<string>, sep: char, n: nat, rest: string)
    requires sep != '\n'
    requires forall i :: 0 <= i < |ls| ==> '\n' !in ls[i] && MatchLine(ls[i]).None?
    ensures FirstPort(Lines(ls) + PortLine(sep, Decimal.FormatChars(n)) + "\n" + rest) == Some(n)
  {
    var after := PortLine(sep, Decimal.FormatChars(n)) + "\n" + rest;
    assert Lines(ls) + PortLine(sep, Decimal.FormatChars(n)) + "\n" + rest == Lines(ls) + after;
    SkipLines(ls, after);
    PortLineReads(sep, n, rest);
  }

  /** Text after some lines follows the first of them and then the others. */
  lemma LinesFirst(ls: seq<string>, after: string)
    requires |ls| > 0
    ensures Lines(ls) + after == ls[0] + "\n" + (Lines(ls[1..]) + after)
  {
  }

  /** The text written before the browser starts reads as port 0. */
  lemma InitialPrefsPort()
    ensures FirstPort(InitialPrefs) == Some(0)
  {
    assert Decimal.FormatChars(0) == "0";
    assert InitialPrefs == PortLine('.', Decimal.FormatChars(0)) + "\n" + [];
    PortLineReads('.', 0, []);
  }

  /** The line the browser writes for port n, at the start of the text, reads
      back as n whatever follows it; since the `.` of the pattern is unescaped,
      so does a line with any other character in its place. */
  lemma PortLineReads(sep: char, n: nat, rest: string)
    requires sep != '\n'
    ensures FirstPort(PortLine(sep, Decimal.FormatChars(n)) + "\n" + rest) == Some(n)
    ensures FirstPort(PortLine(sep, Decimal.FormatChars(n))) == Some(n)
  {
    var digits := Decimal.FormatChars(n);
    assert '\n' !in digits by {
      forall i | 0 <= i < |digits| ensures digits[i] != '\n' {
        assert Decimal.IsDigitChar(digits[i]);
      }
    }
    MatchPortLine(sep, digits);
    Decimal.ParseFormatChars(n);
    FirstPortTakes(PortLine(sep, digits), rest);
  }

  /** A snapshot of the prefs file that ends the polling loop. */
  predicate Ready(snapshot: string)
  {
    FirstPort(snapshot).Some? && FirstPort(snapshot).value != 0
  }

  /** The polling loop as intended: the port of the first snapshot that shows
      a nonzero one; a snapshot without a match just means polling on. When
      the snapshots run out the loop would poll forever: Stalled. */
  function Discover(snapshots: seq<string>): (r: Result<nat>)
    ensures r.Success? ==> r.value != 0 && exists i :: (
      && 0 <= i < |snapshots| && Ready(snapshots[i]) && FirstPort(snapshots[i]) == Some(r.value)
      && forall j :: 0 <= j < i ==> !Ready(snapshots[j]))
    ensures r.Failure? ==> r.error == Stalled && forall i :: 0 <= i < |snapshots| ==> !Ready(snapshots[i])
    decreases |snapshots|
  {
    if |snapshots| == 0 then Failure(Stalled)
    else if Ready(snapshots[0]) then
      Success(FirstPort(snapshots[0]).value)
    else
      var r := Discover(snapshots[1..]);
      if r.Success? then
        var i :| 0 <= i < |snapshots| - 1 && Ready(snapshots[1..][i]) && FirstPort(snapshots[1..][i]) == Some(r.value) &&
          forall j :: 0 <= j < i ==> !Ready(snapshots[1..][j]);
        assert forall j :: 0 <= j < i + 1 ==> !Ready(snapshots[j]) by {
          forall j | 0 <= j < i + 1 ensures !Ready(snapshots[j]) {
            if j > 0 { assert snapshots[j] == snapshots[1..][j - 1]; }
          }
        }
        assert snapshots[i + 1] == snapshots[1..][i];
        r
      else
        assert forall i :: 0 <= i < |snapshots| ==> !Ready(snapshots[i]) by {
          forall i | 0 <= i < |snapshots| ensures !Ready(snapshots[i]) {
            if i > 0 { assert snapshots[i] == snapshots[1..][i - 1]; }
          }
        }
        r
  }

  /** The polling loop as written: `port` (None while unbound) is assigned only
      when the search matches, and `port != 0` on an unbound `port` raises. */
  function DiscoverAsWritten(snapshots: seq<string>, port: Option<nat>): (r: Result<nat>)
    decreases |snapshots|
  {
    if |snapshots| == 0 then Failure(Stalled)
    else
      var port' := if FirstPort(snapshots[0]).Some? then FirstPort(snapshots[0]) else port;
      if port'.None? then Failure(PortUnbound)
      else if port'.value != 0 then Success(port'.value)
      else DiscoverAsWritten(snapshots[1..], port')
  }

  /** Once `port` is bound to 0 the loop as written is the intended one; in
      particular it is when the first snapshot matches. */
  lemma {:induction false} DiscoverAgrees(snapshots: seq<string>)
    ensures DiscoverAsWritten(snapshots, Some(0)) == Discover(snapshots)
    ensures |snapshots| > 0 && FirstPort(snapshots[0]).Some? ==>
      DiscoverAsWritten(snapshots, None) == Discover(snapshots)
    decreases |snapshots|
  {
    if |snapshots| > 0 {
      DiscoverAgrees(snapshots[1..]);
    }
  }

  /** A first snapshot read while the file holds no port line (the browser
      rewriting it) makes the loop as written raise, where polling on finds the port. */
  lemma UnboundPort()
    ensures var snapshots := ["", PortLine('.', Decimal.FormatChars(4444))];
      && DiscoverAsWritten(snapshots, None) == Failure(PortUnbound)
      && Discover(snapshots) == Success(4444)
  {
    var line := PortLine('.', Decimal.FormatChars(4444));
    assert FirstPort("") == None by {
      assert MatchLine("") == None;
    }
    PortLineReads('.', 4444, []);
    assert ["", line][1..] == [line];
  }

  /** The scenario of a fresh profile: the initial text, then the browser's port. */
  lemma InitialThenPort()
    ensures Discover([InitialPrefs, PortLine('.', Decimal.FormatChars(4444)) + "\n"]) == Success(4444)
  {
    var line := PortLine('.', Decimal.FormatChars(4444)) + "\n";
    InitialPrefsPort();
    PortLineReads('.', 4444, []);
    assert line + [] == line;
    assert [InitialPrefs, line][1..] == [line];
  }
}
